=== FILE: README.md ===
# OpenProject frontend and backlogs rules — a Dafny model

This project models five small pieces of OpenProject's logic as pure Dafny functions and proves properties about them:

- **Timeline grid** (`CalendarUnits`, `TimeSlices`, `TimelineGrid`).
  - The grid behind the Gantt chart cuts the displayed date range into time slices, one per day, week or month depending on the zoom level.
  - It then turns each slice into a cell with a left offset and a width, both counted in days.
  - Dates are whole day numbers.
  - A calendar unit is a record of `startOf`, `endOf` and `next`. The axioms moment.js guarantees for these functions are stated as the predicate `Valid`.
  - The day and week units are concrete and proved valid. The month unit is a parameter.
- **Path builder** (`PathBuilder`).
  - A configuration tree of URI templates such as `foo{/param}` becomes a tree of callables.
  - A callable expands its template (section 3.2.6 of RFC 6570, path-segment expansion).
  - A nested callable appends `/` and its own expansion to its parent's.
- **Multi-select edit field** (`NameOrder`, `MultiSelectField`). This covers:
  - how the field's options are assembled from the schema's allowed values;
  - how the changeset's value is shown as a selection, and how a selection is written back;
  - when the current value is flagged invalid.
- **Keep-tab service** (`KeepTab`).
  - Remembers the tab of the work-package view from router state names.
  - Announces each change as a pair of target states, one for the full view and one for the split view.
- **Backlogs contract rules** (`BacklogsContract`). The two rules the backlogs plugin adds to work-package validation:
  - a task under a story or task must carry its parent's version;
  - it must stay in its parent's project.

  The rules are modelled as the decision table their RSpec examples enumerate.

`Wrappers` holds the `Option` type shared by the modules.

## Model

| member | source | states |
|---|---|---|
| CalendarUnits.DayIsValid | frontend/app/components/wp-table/timeline/grid/wp-timeline-grid.directive.ts:83 | The day unit obeys the unit laws: every day is its own block and `next` moves to the following day |
| CalendarUnits.WeekIsValid | frontend/app/components/wp-table/timeline/grid/wp-timeline-grid.directive.ts:120-126 | The week unit obeys the unit laws the loop relies on: each day lies in a block from `startOf` to `endOf`, the day after a block starts the next block, `next` of a block's start is the start of the following block, and every day of a block has the same block |
| CalendarUnits.WeekBlock | frontend/app/components/wp-table/timeline/grid/wp-timeline-grid.directive.ts:120-121 | A week block spans seven days and starts on the locale's first weekday |
| TimeSlices.SlicesFrom | frontend/app/components/wp-table/timeline/grid/wp-timeline-grid.directive.ts:123-128 | From any block start, the slices still to be emitted tile the rest of the range contiguously, each inside one block and cut only at block boundaries or the range ends; once the cursor is past the range, nothing more is emitted |
| TimeSlices.Slices | frontend/app/components/wp-table/timeline/grid/wp-timeline-grid.directive.ts:118-128 | For `startView <= endView`, the slices start at `startView`, end at `endView`, each has start <= end, each starts the day after the previous one ends, and each lies in one unit block |
| TimeSlices.TilesOrdered | frontend/app/components/wp-table/timeline/grid/wp-timeline-grid.directive.ts:123-127 | Slices are strictly increasing and pairwise disjoint |
| TimeSlices.TilesWithin | frontend/app/components/wp-table/timeline/grid/wp-timeline-grid.directive.ts:124-125 | Every slice lies within the displayed range |
| TimeSlices.TilesCover | frontend/app/components/wp-table/timeline/grid/wp-timeline-grid.directive.ts:123-127 | Every displayed day lies in exactly one slice |
| TimeSlices.OneSlicePerBlock | frontend/app/components/wp-table/timeline/grid/wp-timeline-grid.directive.ts:120-128 | A later slice lies in a strictly later unit block, so no two slices share a block |
| TimeSlices.BlockHasSlice | frontend/app/components/wp-table/timeline/grid/wp-timeline-grid.directive.ts:120-128 | Every unit block holding a displayed day has a slice lying in that block |
| TimeSlices.DaySlices | frontend/app/components/wp-table/timeline/grid/wp-timeline-grid.directive.ts:120-128 | With the day unit there are `endView - startView + 1` slices, and slice i is the single day `startView + i` |
| TimeSlices.DayStarts | frontend/app/components/wp-table/timeline/grid/wp-timeline-grid.directive.ts:124-126 | In a tiling made of one-day slices, slice i starts i days after the range start |
| TimeSlices.WeekSliceCount | frontend/app/components/wp-table/timeline/grid/wp-timeline-grid.directive.ts:120-128 | With the week unit, the number of slices is the number of weeks from the week of `startView` to the week of `endView`, inclusive |
| TimeSlices.WeekBlocks | frontend/app/components/wp-table/timeline/grid/wp-timeline-grid.directive.ts:126 | With the week unit, slice i lies in the week that starts 7·i days after the week of `startView` starts |
| TimeSlices.CellOf | frontend/app/components/wp-table/timeline/grid/wp-timeline-grid.directive.ts:133-134 | A cell covers exactly the days of its slice: its offset from the range start is the slice start and its width reaches the slice end; a non-empty slice gives a cell at least one day wide |
| TimeSlices.Cells | frontend/app/components/wp-table/timeline/grid/wp-timeline-grid.directive.ts:130-134 | There is one cell per slice |
| TimeSlices.CellsAbut | frontend/app/components/wp-table/timeline/grid/wp-timeline-grid.directive.ts:133-134 | For a tiling, the first cell has offset 0, every cell is at least one day wide, each cell starts where the previous one ends, and the widths add up to the number of displayed days |
| TimeSlices.WidthsAdd | frontend/app/components/wp-table/timeline/grid/wp-timeline-grid.directive.ts:133-134 | The first n cell widths add up to the days from the range start to the end of slice n |
| TimeSlices.WidthBound | frontend/app/components/wp-table/timeline/grid/wp-timeline-grid.directive.ts:133-134 | Cells at least one day wide are never more numerous than the days they span |
| TimeSlices.RenderTimeSlices | frontend/app/components/wp-table/timeline/grid/wp-timeline-grid.directive.ts:112-138 | The two loops produce exactly the cells of the slice partition; for a forward range they start at offset 0 and span the whole range |
| TimeSlices.DayReversedRange | frontend/app/components/wp-table/timeline/grid/wp-timeline-grid.directive.ts:120-123 | A backwards range is not rejected: with the day unit it yields no slice |
| TimeSlices.WeekReversedRange | frontend/app/components/wp-table/timeline/grid/wp-timeline-grid.directive.ts:120-127 | Under the week unit, a backwards range whose two days fall in the same week yields exactly one inverted slice from the start day to the end day |
| TimelineGrid.UnitFor | frontend/app/components/wp-table/timeline/grid/wp-timeline-grid.directive.ts:66-110 | The zoom dispatch is total. The day unit is used exactly for days and weeks, the week unit exactly for months, and the month unit exactly for quarters and years |
| TimelineGrid.UnitOf | frontend/app/components/wp-table/timeline/grid/wp-timeline-grid.directive.ts:82-110 | Under the day unit every day is its own block; a week block runs from its first day to six days later and holds the day; the quarter and year levels use the calendar's month unit |
| TimelineGrid.UnitOfIsValid | frontend/app/components/wp-table/timeline/grid/wp-timeline-grid.directive.ts:82-110 | Every unit the dispatch can choose satisfies the unit laws, given a lawful month unit |
| TimelineGrid.Paint | frontend/app/components/wp-table/timeline/grid/wp-timeline-grid.directive.ts:112-138 | For a forward range, at least one cell is painted and no more cells than displayed days |
| TimelineGrid.PaintAbuts | frontend/app/components/wp-table/timeline/grid/wp-timeline-grid.directive.ts:64-76 | At every zoom level, the cells painted for a forward range start at the left edge, abut one another, are non-empty, and span every displayed day |
| TimelineGrid.RenderLabels | frontend/app/components/wp-table/timeline/grid/wp-timeline-grid.directive.ts:59-80 | `renderLabels` never changes the active zoom level. It leaves the grid untouched when the active level equals the requested one; otherwise it repaints with abutting cells covering the range |
| TimelineGrid.Refreshes | frontend/app/components/wp-table/timeline/grid/wp-timeline-grid.directive.ts:55-79 | A series of refreshes never records a zoom level, so the early return keeps comparing against the initial unset level; an empty series leaves the grid as it was |
| TimelineGrid.AlwaysRepaints | frontend/app/components/wp-table/timeline/grid/wp-timeline-grid.directive.ts:55-79 | The early return is dead: from a fresh component, after any sequence of refreshes, the active level is still unset and the grid shows the cells of the latest view |
| TimelineGrid.RepaintsFrom | frontend/app/components/wp-table/timeline/grid/wp-timeline-grid.directive.ts:60-79 | While the active level is unset, it stays unset and every refresh repaints |
| TimelineGrid.DayZoomCells | frontend/app/components/wp-table/timeline/grid/wp-timeline-grid.directive.ts:82-92 | At the days and weeks zoom levels, day i of the range gets a one-day cell at offset i |
| PathBuilder.NameLength | frontend/app/components/api/path-builder/path-builder.service.test.ts:86 | Measures the longest run of variable-name characters at the front of a text |
| PathBuilder.ReadPart | frontend/app/components/api/path-builder/path-builder.service.test.ts:86-91 | Reading one element consumes at least one character; a recognised element is well formed and is exactly the text it consumed |
| PathBuilder.Parse | frontend/app/components/api/path-builder/path-builder.service.test.ts:86-91 | A parsed template is well formed and writes back to the very text it came from |
| PathBuilder.ParseUnparse | frontend/app/components/api/path-builder/path-builder.service.test.ts:86-91 | Every well-formed template reads back to itself after being written out |
| PathBuilder.UnparseCons | frontend/app/components/api/path-builder/path-builder.service.test.ts:86-91 | Writing out a template is element-wise concatenation, and well-formedness is per element |
| PathBuilder.SegmentText | frontend/app/components/api/path-builder/path-builder.service.test.ts:86 | A `{/name}` at the front of a text is exactly the written form of that segment |
| PathBuilder.NameLengthOf | frontend/app/components/api/path-builder/path-builder.service.test.ts:86 | A variable name followed by `}` is measured as exactly its own length |
| PathBuilder.ParseLiteralCons | frontend/app/components/api/path-builder/path-builder.service.test.ts:86-91 | A leading literal character is read as one literal element, followed by the reading of the rest |
| PathBuilder.ParseSegmentCons | frontend/app/components/api/path-builder/path-builder.service.test.ts:86-88 | A leading `{/name}` is read as one segment element, followed by the reading of the rest |
| PathBuilder.ExpandPart | frontend/app/components/api/path-builder/path-builder.service.test.ts:63-80 | A literal expands to its own text; a segment expands to nothing exactly when its variable is not given, and otherwise to `/` followed by the value |
| PathBuilder.ExpandTemplate | frontend/app/components/api/path-builder/path-builder.service.test.ts:106-118 | A template made of literals only expands to its own template text |
| PathBuilder.Expand | frontend/app/components/api/path-builder/path-builder.service.test.ts:63-80 | A text expands exactly when it reads as a template; without parameters its expansion is the template's literal text |
| PathBuilder.ExpandWithoutParams | frontend/app/components/api/path-builder/path-builder.service.test.ts:63-70 | When none of a template's variables is given, every segment expression drops out and only the literal text remains |
| PathBuilder.ExpandLiteral | frontend/app/components/api/path-builder/path-builder.service.test.ts:90-91 | A template text without expressions expands to itself whatever the parameters |
| PathBuilder.LiteralTemplate | frontend/app/components/api/path-builder/path-builder.service.test.ts:90-91 | A brace-free text reads as a template of literals that writes back to it and expands to it under every parameter map |
| PathBuilder.UnparseConcat | frontend/app/components/api/path-builder/path-builder.service.test.ts:86-91 | Writing out a concatenation of templates concatenates their texts |
| PathBuilder.ExpandConcat | frontend/app/components/api/path-builder/path-builder.service.test.ts:106-119 | Expanding a concatenation of templates concatenates their expansions |
| PathBuilder.BuildPath | frontend/app/components/api/path-builder/path-builder.service.test.ts:114-123 | A built callable carries its ancestors' templates followed by its own, and its nested callables have exactly the keys of the entry's child object |
| PathBuilder.BuildPaths | frontend/app/components/api/path-builder/path-builder.service.test.ts:95-104 | The built collection has exactly the configuration's keys, and each outer callable carries exactly its own template |
| PathBuilder.Join | frontend/app/components/api/path-builder/path-builder.service.test.ts:124-138 | Joining expansions yields a path exactly when every expansion succeeded; a chain of two or more yields a path ending in `/` and the last expansion |
| PathBuilder.Call | frontend/app/components/api/path-builder/path-builder.service.test.ts:106-138 | A call yields a path exactly when every template from the outermost entry down expands; an outer callable yields its own expansion, and a nested one a path ending in `/` and its own expansion |
| PathBuilder.CallOuter | frontend/app/components/api/path-builder/path-builder.service.test.ts:106-119 | An outer callable, from a plain string entry or an array entry alike, expands its own template |
| PathBuilder.CallNested | frontend/app/components/api/path-builder/path-builder.service.test.ts:125-139 | A nested callable yields a path exactly when both its parent and its own template expand, and then yields the parent's path, `/`, and its own expansion |
| PathBuilder.CallTemplatesDefined | frontend/app/components/api/path-builder/path-builder.service.test.ts:59-61 | Joining a chain of templates succeeds whenever every template in it reads |
| PathBuilder.CallAlwaysDefined | frontend/app/components/api/path-builder/path-builder.service.test.ts:59-61 | Every callable built from well-formed templates, at every nesting depth, yields a path with or without parameters |
| PathBuilder.SegmentAfterTemplate | frontend/app/components/api/path-builder/path-builder.service.test.ts:86-91 | Literal text followed by the segment `x` is a well-formed template that writes out as that text then `{/x}` |
| PathBuilder.ParseSegmentAfter | frontend/app/components/api/path-builder/path-builder.service.test.ts:86-91 | Literal text followed by `{/x}` reads as the literal elements of that text then the segment `x` |
| PathBuilder.ExpandSingleSegment | frontend/app/components/api/path-builder/path-builder.service.test.ts:106-119 | A lone segment `x` expands to `/` and the value of `x` when it is given, and to nothing when it is not |
| PathBuilder.ExpandSegmentWith | frontend/app/components/api/path-builder/path-builder.service.test.ts:106-119 | Literal text followed by `{/x}` expands to the literal then `/` and the value of `x` when it is given, and to the literal alone when it is not |
| PathBuilder.ExpandSegmentDropped | frontend/app/components/api/path-builder/path-builder.service.test.ts:63-70 | Literal text followed by `{/x}` expands to the literal alone when no parameter is given |
| PathBuilder.ExpandSegmentFilled | frontend/app/components/api/path-builder/path-builder.service.test.ts:73-80 | Literal text followed by `{/x}` expands to the literal, `/` and the value when `x` alone is given |
| PathBuilder.ExpandSegmentAfter | frontend/app/components/api/path-builder/path-builder.service.test.ts:106-119 | Literal text followed by `{/x}` expands to the literal alone without `x`, and to the literal, `/` and the value with it |
| PathBuilder.ExampleOuterExpansions | frontend/app/components/api/path-builder/path-builder.service.test.ts:84-119 | For the test's configuration shape with any literal words, the collection has the keys `string` and `array`, which expand to `foo` or `foo/v` and to `bar` or `bar/v` |
| PathBuilder.ExampleNestedExpansions | frontend/app/components/api/path-builder/path-builder.service.test.ts:121-139 | In the same configuration, the array entry has the keys `nestedString` and `nestedArray`, which expand to `bar/nested` without the parameter and `bar/v/nested` with it |
| PathBuilder.ExampleNested | frontend/app/components/api/path-builder/path-builder.service.test.ts:125-139 | A literal child of an entry whose template expands to e yields e, `/` and the child's text |
| NameOrder.LowerChar | frontend/app/components/wp-edit/field-types/wp-edit-multi-select-field.module.ts:162-163 | ASCII capitals map to the matching lower-case letter; every other character is unchanged |
| NameOrder.LowerCase | frontend/app/components/wp-edit/field-types/wp-edit-multi-select-field.module.ts:162-163 | Lower-casing keeps the length and lower-cases each character in place |
| NameOrder.StrLeqTotal | frontend/app/components/wp-edit/field-types/wp-edit-multi-select-field.module.ts:164 | Any two strings are comparable by the comparator |
| NameOrder.StrLeqTrans | frontend/app/components/wp-edit/field-types/wp-edit-multi-select-field.module.ts:164 | The comparator's order is transitive |
| NameOrder.StrLeqRefl | frontend/app/components/wp-edit/field-types/wp-edit-multi-select-field.module.ts:164 | The comparator's order is reflexive |
| NameOrder.NameLeqTotal | frontend/app/components/wp-edit/field-types/wp-edit-multi-select-field.module.ts:161-165 | Any two option names are comparable after lower-casing |
| NameOrder.NameLeqTrans | frontend/app/components/wp-edit/field-types/wp-edit-multi-select-field.module.ts:161-165 | The name order is transitive |
| NameOrder.CaseInsensitive | frontend/app/components/wp-edit/field-types/wp-edit-multi-select-field.module.ts:162-164 | Names that differ only in letter case sort as equals |
| MultiSelectField.Find | frontend/app/components/wp-edit/field-types/wp-edit-multi-select-field.module.ts:153 | The search finds nothing exactly when no element satisfies the test; otherwise it returns the first element that satisfies it: the one at an index where the test holds and fails at every earlier index |
| MultiSelectField.AddEmptyOption | frontend/app/components/wp-edit/field-types/wp-edit-multi-select-field.module.ts:196-208 | Required fields keep their options unchanged. Otherwise some option carries the placeholder name afterwards: the empty option is put in front only when no option had that name, and the options are unchanged when one did |
| MultiSelectField.AddEmptyOptionIdempotent | frontend/app/components/wp-edit/field-types/wp-edit-multi-select-field.module.ts:196-208 | Adding the empty option twice gives the same options as adding it once |
| MultiSelectField.Insert | frontend/app/components/wp-edit/field-types/wp-edit-multi-select-field.module.ts:161-165 | Inserting into a name-sorted list keeps it sorted and adds exactly the one element |
| MultiSelectField.SortByName | frontend/app/components/wp-edit/field-types/wp-edit-multi-select-field.module.ts:160-166 | The sorted options are ordered non-decreasingly by lower-cased name and are a permutation of the input |
| MultiSelectField.SortedOptions | frontend/app/components/wp-edit/field-types/wp-edit-multi-select-field.module.ts:159-169 | With sorting requested, an empty option that is added comes first and the remaining options are the allowed values sorted by name; when no empty option is added, all options are sorted and form a permutation of the allowed values |
| MultiSelectField.SortedWithEmpty | frontend/app/components/wp-edit/field-types/wp-edit-multi-select-field.module.ts:168-169 | Without a placeholder-named value, the empty option is put in front of the sorted values of a non-required field |
| MultiSelectField.SortedWithoutEmpty | frontend/app/components/wp-edit/field-types/wp-edit-multi-select-field.module.ts:168-169 | A required field, or one whose values already include the placeholder name, keeps exactly the sorted values |
| MultiSelectField.ValueOptions | frontend/app/components/wp-edit/field-types/wp-edit-multi-select-field.module.ts:170-172 | There are as many value options as options, and each carries the name and link of the option at the same index |
| MultiSelectField.FindValueOption | frontend/app/components/wp-edit/field-types/wp-edit-multi-select-field.module.ts:149-157 | For a resource whose link some value option carries, the result is the first value option with that link. With no resource, or no match, the result is the empty option, never nothing |
| MultiSelectField.BuildSelectedOption | frontend/app/components/wp-edit/field-types/wp-edit-multi-select-field.module.ts:92-110 | The selection is a list exactly in multi mode. It maps a list value element by element with the same length, and wraps a single value or no value into a one-element list. Single mode shows the first element's option, or the empty option for an empty list or no value |
| MultiSelectField.NormalizeHref | frontend/app/components/wp-edit/field-types/wp-edit-multi-select-field.module.ts:126-130 | An empty-string link becomes no link; any other option is unchanged |
| MultiSelectField.OptionFor | frontend/app/components/wp-edit/field-types/wp-edit-multi-select-field.module.ts:123-133 | A chosen value option maps to the first option carrying its link, with an empty-string link read as none, or to the empty option when no option carries it |
| MultiSelectField.CastArray | frontend/app/components/wp-edit/field-types/wp-edit-multi-select-field.module.ts:135 | A single option becomes a one-element list of that option, and a list is handed back unchanged, in its order |
| MultiSelectField.SelectOption | frontend/app/components/wp-edit/field-types/wp-edit-multi-select-field.module.ts:120-136 | The setter remembers the selection and always writes a list to the changeset, one entry per chosen option. Each entry is the first option with that link, or the empty option when none has it; nothing else in the field changes |
| MultiSelectField.Shown | frontend/app/components/wp-edit/field-types/wp-edit-multi-select-field.module.ts:77-85 | The value getter returns the changeset's value, except that in single mode a list reads as its first element, and an empty list as no value |
| MultiSelectField.IsValueMulti | frontend/app/components/wp-edit/field-types/wp-edit-multi-select-field.module.ts:139-142 | A value is multi exactly when it is a list of more than one resource: a lone resource or no value never is, and single mode would show a multi value as its first element, hiding the rest |
| MultiSelectField.ValueInvalid | frontend/app/components/wp-edit/field-types/wp-edit-multi-select-field.module.ts:177-194 | With no value, the value is invalid exactly when the field is required. A list, even an empty one, is invalid exactly when none of its links is offered. A single resource is invalid exactly when its link is not offered |
| MultiSelectField.CheckCurrentValueValidity | frontend/app/components/wp-edit/field-types/wp-edit-multi-select-field.module.ts:177-194 | Only the flag changes. With no shown value it equals the required flag; a shown resource is invalid exactly when its link is not offered; a list exactly when none of its links is offered |
| MultiSelectField.SetValues | frontend/app/components/wp-edit/field-types/wp-edit-multi-select-field.module.ts:159-175 | The options are the allowed values, after the empty option when the field is optional and no value carries the placeholder name. They are sorted by name when requested and keep their order otherwise. The value options project the options, the selection is rebuilt from the value, the validity flag is recomputed, and nothing else changes |
| MultiSelectField.OptionsOffered | frontend/app/components/wp-edit/field-types/wp-edit-multi-select-field.module.ts:159-169 | The options `setValues` installs are a permutation of the allowed values, after the empty option when one is added, sorted by name when requested and in the given order otherwise |
| MultiSelectField.Initialize | frontend/app/components/wp-edit/field-types/wp-edit-multi-select-field.module.ts:49-75 | The field is in multi mode exactly when the value is a list of more than one resource, and its value, required flag and placeholder are those given. Inline allowed values are offered in their order; a loaded collection is offered sorted by name when it holds projects and in its order otherwise; without allowed values only the empty option is offered, and only for an optional field |
| MultiSelectField.ToggleMultiselect | frontend/app/components/wp-edit/field-types/wp-edit-multi-select-field.module.ts:144-147 | Toggling flips the mode and rebuilds the selection to match the new mode; nothing else changes |
| MultiSelectField.InitializeConsistent | frontend/app/components/wp-edit/field-types/wp-edit-multi-select-field.module.ts:49-75 | Whatever the source of the allowed values, initialization leaves value options that project the options, a selection built from the value in the current mode, and an up-to-date validity flag |
| MultiSelectField.ToggleTwice | frontend/app/components/wp-edit/field-types/wp-edit-multi-select-field.module.ts:144-147 | Toggling keeps a consistent field consistent, and toggling twice restores it exactly |
| MultiSelectField.SelectionRoundTrip | frontend/app/components/wp-edit/field-types/wp-edit-multi-select-field.module.ts:92-136 | In multi mode, writing back the selection built from a list value keeps every link, provided every link is offered and none is empty |
| MultiSelectField.SelectThenRead | frontend/app/components/wp-edit/field-types/wp-edit-multi-select-field.module.ts:77-85 | In single mode, reading the value after choosing one option yields that option's resource, not a list |
| MultiSelectField.EmptyListInvalid | frontend/app/components/wp-edit/field-types/wp-edit-multi-select-field.module.ts:177-194 | An empty list is always invalid in multi mode. In single mode it counts as no value |
| KeepTab.ShowTab | frontend/app/components/wp-panels/keep-tab/keep-tab.service.ts:55-63 | The full view's tab is never `overview`: `overview` becomes `activity`, and every other tab is kept |
| KeepTab.ShowState | frontend/app/components/wp-panels/keep-tab/keep-tab.service.ts:47-49 | The full-view state is `work-packages.show.` followed by the full view's tab, which can be read back after the prefix |
| KeepTab.DetailsState | frontend/app/components/wp-panels/keep-tab/keep-tab.service.ts:51-53 | The split-view state is `work-packages.list.details.` followed by the tab itself, which can be read back after the prefix |
| KeepTab.Announcement | frontend/app/components/wp-panels/keep-tab/keep-tab.service.ts:47-75 | The record announcing a tab carries the tab after the split-view prefix and the full view's tab after the full-view prefix |
| KeepTab.AnnouncementInjective | frontend/app/components/wp-panels/keep-tab/keep-tab.service.ts:69-75 | Records announcing different tabs differ, so a record determines the tab it announces |
| KeepTab.LastSegment | frontend/app/components/wp-panels/keep-tab/keep-tab.service.ts:79-80 | The last segment contains no dot, is a suffix of the state name, and is preceded by a dot unless it is the whole name |
| KeepTab.LastSegmentAfterDot | frontend/app/components/wp-panels/keep-tab/keep-tab.service.ts:80 | The last segment of `prefix.tab` is `tab` for any dot-free tab |
| KeepTab.AnnouncementNamesTab | frontend/app/components/wp-panels/keep-tab/keep-tab.service.ts:47-53 | The last segment of the announced split-view state is the tab itself, and that of the full-view state is the full view's tab |
| KeepTab.Notify | frontend/app/components/wp-panels/keep-tab/keep-tab.service.ts:69-75 | A notification keeps the tab and every earlier record and adds exactly one: the announcement of the remembered tab, pairing its full-view and split-view states; that record never sends the full view to `work-packages.show.overview` |
| KeepTab.NotifyNamesTab | frontend/app/components/wp-panels/keep-tab/keep-tab.service.ts:47-53 | For a dot-free tab, the record a notification adds ends in the remembered tab for the split view and in the full view's tab for the full view |
| KeepTab.UpdateTab | frontend/app/components/wp-panels/keep-tab/keep-tab.service.ts:77-84 | When the pattern is included, the tab becomes the last segment of the current state name and that tab is announced. Otherwise nothing changes and nothing is emitted |
| KeepTab.UpdateTabs | frontend/app/components/wp-panels/keep-tab/keep-tab.service.ts:86-98 | A move to `work-packages.show.activity` sets the tab to `overview` and emits exactly the record for the full view's activity and the split view's overview, without consulting the router. Any other move emits one record per included pattern, keeps the earlier records, and takes the tab from the state name, every new record being the announcement of that tab; it changes nothing when neither pattern is included |
| KeepTab.AppendCoherent | frontend/app/components/wp-panels/keep-tab/keep-tab.service.ts:69-75 | Appending the announcement of a tab keeps every record of the log the announcement of some tab: a split-view state and the full-view state of the same tab |
| KeepTab.UpdateTabCoherent | frontend/app/components/wp-panels/keep-tab/keep-tab.service.ts:77-84 | One `updateTab` step keeps the log coherent, and a record it adds describes the remembered tab |
| KeepTab.UpdateTabsCoherent | frontend/app/components/wp-panels/keep-tab/keep-tab.service.ts:69-98 | Updates keep every emitted record coherent, and the newest record always describes the remembered tab |
| KeepTab.NeverShowsOverview | frontend/app/components/wp-panels/keep-tab/keep-tab.service.ts:47-63 | The full-view state is never `work-packages.show.overview` |
| KeepTab.Create | frontend/app/components/wp-panels/keep-tab/keep-tab.service.ts:30-41 | A new service has announced one record per matching view pattern, all coherent, the last one for the remembered tab; when neither pattern matches it remembers `overview` and has announced nothing |
| KeepTab.CreateOnDetails | frontend/app/components/wp-panels/keep-tab/keep-tab.service.ts:30-41 | A service created, with tab `overview`, on the split-view state of a tab remembers that tab and has emitted exactly its announcement |
| BacklogsContract.KindOf | modules/backlogs/spec/contracts/work_packages/base_contract_spec.rb:152-156 | A work package is a story exactly when its type is a story type, and a task exactly when its type is the configured task type and not a story type; any other work package is not tracked by backlogs |
| BacklogsContract.Validate | modules/backlogs/spec/contracts/work_packages/base_contract_spec.rb:165-223 | A work package passes exactly when it is not a task under a story or task, or it shares both version and project with its parent. The only symbol on `fixed_version_id` is the version one, noted exactly when a restricted task's version differs from its parent's; the only symbol on `parent_id` is the cross-project one, noted exactly when a restricted task's project differs from its parent's |
| BacklogsContract.SymbolsFor | modules/backlogs/spec/contracts/work_packages/base_contract_spec.rb:169-170 | The symbols noted on an attribute are exactly those of the errors on that attribute, each as many times as it was noted |
| BacklogsContract.WithoutParentUnrestricted | modules/backlogs/spec/contracts/work_packages/base_contract_spec.rb:276-299 | A work package without a parent passes whatever its kind and version |
| BacklogsContract.UnrestrictedKinds | modules/backlogs/spec/contracts/work_packages/base_contract_spec.rb:294-367 | Stories, non-backlogs work packages, and tasks under a non-backlogs parent pass whatever the versions and projects on either side |
| BacklogsContract.TaskVersionRestricted | modules/backlogs/spec/contracts/work_packages/base_contract_spec.rb:314-335 | A task under a story or task in the same project passes exactly when the versions agree, both absent included; when it fails, the version symbol is the only one on `fixed_version_id` |
| BacklogsContract.TaskProjectRestricted | modules/backlogs/spec/contracts/work_packages/base_contract_spec.rb:371-427 | A task under a story with the same version fails when either side is moved to another project, with the cross-project symbol as the only one on `parent_id` |
| BacklogsContract.VersionScenarios | modules/backlogs/spec/contracts/work_packages/base_contract_spec.rb:179-222 | Of the five version scenarios for two distinct versions, none/none and same/same pass and the other three fail |

## Left out

- DOM work in the timeline grid is not modelled: emptying the container, creating cells, CSS classes, and the padding callbacks.
- `calculatePositionValueForDayCount` is not modelled. Cells hold the day counts it would be given.
- Time of day is not modelled; dates are whole days.
- moment.js's `isBefore(endOf(endView))` becomes `cursor <= endOf(endView)`.
- The locale's first weekday is a parameter of the week unit.
- The Gregorian month table is not part of this model. The month unit is any unit satisfying the unit laws.
- TimeSlices.Slices: a backwards range (start after end) is accepted without an error, because the code has no guard. The day unit then yields no slice, and a coarser unit may yield an inverted slice (`WeekReversedRange`). A fail-fast precondition error is left out because the code has none.
- The path builder service itself is not part of this model. Its behaviour is modelled from what its test pins: string entries, `[template, children]` entries, nesting, and `{/name}` expressions.
- Other RFC 6570 operators, percent-encoding and value lists in the path builder are not modelled. A text containing another expression does not parse, and `Call` then yields nothing. This includes dotted variable names, expressions with several variables such as `{/a,b}`, and modifiers such as `{/x*}` and `{/x:3}`.
- I18n lookups in the multi-select field are not modelled. The placeholder text is a parameter.
- The asynchronous `$load()` of linked allowed values is modelled as already completed. Its collection count is taken to be the number of loaded elements.
- The in-place rewrite of a shared option's `''` link to `null` is not modelled. Only the written value carries the rewritten link.
- `toLowerCase` on non-ASCII letters is not modelled. Lower-casing maps only A–Z.
- String comparison is by character code, matching JavaScript's code-unit comparison for characters of the Basic Multilingual Plane.
- MultiSelectField.ValueInvalid: a single resource in multi mode is checked as a one-element list. The code's `_.some` over an object's property values depends on the resource's internal shape.
- The Rx `ReplaySubject` in the keep-tab service is modelled as the list of all emitted records; a subscriber sees the last one.
- `$rootScope` event wiring in the keep-tab service is not modelled. `UpdateTabs` is called with the name of the target state.
- ui-router's `$state.includes` glob matching is an abstract predicate on the router.
- BacklogsContract.KindOf: a type that is both a story type and the configured task type is classified as a story. The specs never configure that overlap, so this is a modelling choice.
- The Rails ORM, FactoryBot fixtures and `Setting` stubbing are not modelled. The work-package contract's other validations are assumed to pass.
- The project rule is pinned by the RSpec examples only for a task under a story. The model applies it to a task under any backlogs parent, a story or a task, the same condition as the version rule.

=== FILE: backlogs_contract.dfy ===
/** The two rules the backlogs plugin adds to the work-package contract: a task below
    a story or task must share its parent's version, and must stay in its parent's
    project. Every other validation of the contract is taken to pass. */
module BacklogsContract {
  import opened Wrappers

  /** The plugin settings that classify types: the story types and the configured task type. */
  datatype Settings = Settings(storyTypes: set<int>, taskType: int)

  datatype Kind = Story | Task | NonBacklogs

  datatype WorkPackage = WorkPackage(
    typeId: int,
    project: int,
    fixedVersion: Option<int>,
    parent: Option<WorkPackage>)

  datatype Attribute = FixedVersionId | ParentId

  datatype Symbol = TaskVersionMustBeTheSameAsStoryVersion | ParentChildRelationshipAcrossProjects

  datatype Error = Error(attribute: Attribute, symbol: Symbol)

  /** A story is a work package of a story type; a task is one of the configured task type that
      is not also a story type; anything else is not tracked by backlogs. */
  function KindOf(settings: Settings, wp: WorkPackage): (k: Kind)
    ensures k == Story <==> wp.typeId in settings.storyTypes
    ensures k == Task <==> wp.typeId !in settings.storyTypes && wp.typeId == settings.taskType
  {
    if wp.typeId in settings.storyTypes then Story
    else if wp.typeId == settings.taskType then Task
    else NonBacklogs
  }

  /** The rules apply to a task whose parent is tracked by backlogs. */
  predicate RestrictedByParent(settings: Settings, wp: WorkPackage)
  {
    && wp.parent.Some?
    && KindOf(settings, wp) == Task
    && KindOf(settings, wp.parent.value) != NonBacklogs
  }

  function VersionErrors(settings: Settings, wp: WorkPackage): seq<Error>
  {
    if RestrictedByParent(settings, wp) && wp.fixedVersion != wp.parent.value.fixedVersion then
      [Error(FixedVersionId, TaskVersionMustBeTheSameAsStoryVersion)]
    else
      []
  }

  function ProjectErrors(settings: Settings, wp: WorkPackage): seq<Error>
  {
    if RestrictedByParent(settings, wp) && wp.project != wp.parent.value.project then
      [Error(ParentId, ParentChildRelationshipAcrossProjects)]
    else
      []
  }

  /** The errors the two rules note on a work package. */
  function Validate(settings: Settings, wp: WorkPackage): (errors: seq<Error>)
    ensures errors == [] <==>
      !RestrictedByParent(settings, wp) ||
      (wp.fixedVersion == wp.parent.value.fixedVersion && wp.project == wp.parent.value.project)
    ensures SymbolsFor(errors, FixedVersionId) == [] || SymbolsFor(errors, FixedVersionId) == [TaskVersionMustBeTheSameAsStoryVersion]
    ensures SymbolsFor(errors, ParentId) == [] || SymbolsFor(errors, ParentId) == [ParentChildRelationshipAcrossProjects]
    ensures SymbolsFor(errors, FixedVersionId) != [] <==>
      RestrictedByParent(settings, wp) && wp.fixedVersion != wp.parent.value.fixedVersion
    ensures SymbolsFor(errors, ParentId) != [] <==>
      RestrictedByParent(settings, wp) && wp.project != wp.parent.value.project
  {
    var version := VersionErrors(settings, wp);
    var project := ProjectErrors(settings, wp);
    var errors := version + project;
    assert SymbolsFor(project, FixedVersionId) == [];
    assert version == [] ==> errors == project;
    assert version != [] ==> errors[0] == version[0] && errors[1..] == project;
    errors
  }

  /** The symbols noted on one attribute, in order (`errors.symbols_for`): each one as
      often as it was noted. */
  function SymbolsFor(errors: seq<Error>, attribute: Attribute): (r: seq<Symbol>)
    ensures |r| <= |errors|
    ensures forall s :: s in r <==> exists i :: 0 <= i < |errors| && errors[i] == Error(attribute, s)
    ensures forall s :: multiset(r)[s] == multiset(errors)[Error(attribute, s)]
  {
    if errors == [] then []
    else
      var rest := SymbolsFor(errors[1..], attribute);
      assert forall i :: 1 <= i < |errors| ==> errors[i] == errors[1..][i - 1];
      assert errors == [errors[0]] + errors[1..];
      if errors[0].attribute == attribute then [errors[0].symbol] + rest else rest
  }

  predicate IsValid(settings: Settings, wp: WorkPackage)
  {
    Validate(settings, wp) == []
  }

  // ---------------------------------------------------------------------------
  // The decision table

  /** A work package without a parent is valid whatever its kind and version. */
  lemma WithoutParentUnrestricted(settings: Settings, wp: WorkPackage)
    requires wp.parent.None?
    ensures IsValid(settings, wp)
  {
  }

  /** Stories, non-backlogs work packages, and tasks under a non-backlogs parent are
      valid whatever the versions and projects on either side. */
  lemma UnrestrictedKinds(settings: Settings, wp: WorkPackage, parent: WorkPackage)
    requires wp.parent == Some(parent)
    requires KindOf(settings, wp) != Task || KindOf(settings, parent) == NonBacklogs
    ensures forall v, p :: IsValid(settings, wp.(fixedVersion := v, project := p))
    ensures forall v, p :: IsValid(settings, wp.(parent := Some(parent.(fixedVersion := v, project := p))))
  {
  }

  /** A task under a story or task in the same project: valid exactly when the two
      versions agree (both absent counts as agreeing), and the only version error is
      the one about the story's version. */
  lemma TaskVersionRestricted(settings: Settings, wp: WorkPackage, parent: WorkPackage)
    requires wp.parent == Some(parent) && wp.project == parent.project
    requires KindOf(settings, wp) == Task && KindOf(settings, parent) != NonBacklogs
    ensures IsValid(settings, wp) <==> wp.fixedVersion == parent.fixedVersion
    ensures !IsValid(settings, wp) ==>
      SymbolsFor(Validate(settings, wp), FixedVersionId) == [TaskVersionMustBeTheSameAsStoryVersion]
  {
  }

  /** A task under a story or task with the same version: valid exactly when they share
      the project, whichever side moved, and the only parent error is the one about
      crossing projects. */
  lemma TaskProjectRestricted(settings: Settings, wp: WorkPackage, parent: WorkPackage, other: int)
    requires wp.parent == Some(parent) && wp.fixedVersion == parent.fixedVersion && wp.project == parent.project
    requires KindOf(settings, wp) == Task && KindOf(settings, parent) != NonBacklogs
    requires other != parent.project
    ensures var moved := wp.(project := other);
      !IsValid(settings, moved) &&
      SymbolsFor(Validate(settings, moved), ParentId) == [ParentChildRelationshipAcrossProjects]
    ensures var parentMoved := wp.(parent := Some(parent.(project := other)));
      !IsValid(settings, parentMoved) &&
      SymbolsFor(Validate(settings, parentMoved), ParentId) == [ParentChildRelationshipAcrossProjects]
  {
  }

  /** The five version scenarios of the restricted case, for two distinct versions:
      none/none and same/same pass, the other three fail. */
  lemma VersionScenarios(settings: Settings, task: WorkPackage, parent: WorkPackage, v1: int, v2: int)
    requires v1 != v2 && task.project == parent.project
    requires KindOf(settings, task) == Task && KindOf(settings, parent) != NonBacklogs
    ensures IsValid(settings, task.(fixedVersion := None, parent := Some(parent.(fixedVersion := None))))
    ensures !IsValid(settings, task.(fixedVersion := None, parent := Some(parent.(fixedVersion := Some(v1)))))
    ensures !IsValid(settings, task.(fixedVersion := Some(v2), parent := Some(parent.(fixedVersion := Some(v1)))))
    ensures IsValid(settings, task.(fixedVersion := Some(v1), parent := Some(parent.(fixedVersion := Some(v1)))))
    ensures !IsValid(settings, task.(fixedVersion := Some(v1), parent := Some(parent.(fixedVersion := None))))
  {
    forall tv: Option<int>, pv: Option<int>
      ensures IsValid(settings, task.(fixedVersion := tv, parent := Some(parent.(fixedVersion := pv)))) <==> tv == pv
    {
      var p := parent.(fixedVersion := pv);
      TaskVersionRestricted(settings, task.(fixedVersion := tv, parent := Some(p)), p);
    }
  }
}

=== FILE: calendar_units.dfy ===
/** Calendar units over whole-day numbers.

    A unit (day, week, month) cuts the time line into consecutive blocks.  The date
    library supplies, for every day `d`, the first and last day of the block holding
    `d`, and the day reached by adding one unit to the first day of a block.  Times
    of day are not modelled: a date is the number of its day. */
module CalendarUnits {

  datatype Unit = Unit(startOf: int -> int, endOf: int -> int, next: int -> int)

  /** The facts the date library guarantees about the block holding `d`: it contains
      `d`, the day after it starts a new block, and adding one unit to its first day
      lands on that day. */
  ghost predicate BlockAt(u: Unit, d: int)
  {
    && u.startOf(d) <= d <= u.endOf(d)
    && u.startOf(u.endOf(d) + 1) == u.endOf(d) + 1
    && u.next(u.startOf(d)) == u.endOf(d) + 1
  }

  /** Every day of the block holding `d` belongs to that very block. */
  ghost predicate SameBlock(u: Unit, d: int, e: int)
  {
    u.startOf(d) <= e <= u.endOf(d) ==> u.startOf(e) == u.startOf(d) && u.endOf(e) == u.endOf(d)
  }

  /** A well-behaved unit.  The two quantifiers fire only on explicit mentions of
      `BlockAt`/`SameBlock`, which keeps the solver away from matching loops. */
  ghost predicate Valid(u: Unit)
  {
    && (forall d :: BlockAt(u, d))
    && (forall d, e :: SameBlock(u, d, e))
  }

  predicate IsBlockStart(u: Unit, c: int)
  {
    u.startOf(c) == c
  }

  predicate IsBlockEnd(u: Unit, c: int)
  {
    u.endOf(c) == c
  }

  /** moment's "day" unit on whole days: every day is its own block. */
  function Day(): Unit
  {
    Unit(d => d, d => d, d => d + 1)
  }

  /** moment's "week" unit; `weekStart` is a day number on which the locale's weeks begin. */
  function Week(weekStart: int): Unit
  {
    Unit(d => d - (d - weekStart) % 7, d => d - (d - weekStart) % 7 + 6, d => d + 7)
  }

  lemma DayIsValid()
    ensures Valid(Day())
  {
  }

  lemma WeekIsValid(weekStart: int)
    ensures Valid(Week(weekStart))
  {
    var u := Week(weekStart);
    forall d
      ensures BlockAt(u, d)
    {
      var s := d - (d - weekStart) % 7;
      assert (s - weekStart) % 7 == 0;
      assert (s + 7 - weekStart) % 7 == 0;
    }
    forall d, e
      ensures SameBlock(u, d, e)
    {
      var s := d - (d - weekStart) % 7;
      if s <= e <= s + 6 {
        assert (s - weekStart) % 7 == 0;
        assert (e - weekStart) % 7 == e - s;
      }
    }
  }

  /** The week containing `d` is the seven days from its first day. */
  lemma WeekBlock(weekStart: int, d: int)
    ensures Week(weekStart).endOf(d) == Week(weekStart).startOf(d) + 6
    ensures (Week(weekStart).startOf(d) - weekStart) % 7 == 0
  {
  }
}

=== FILE: keep_tab.dfy ===
/** The keep-tab service: remembers the tab last shown in a work-package view, so
    that switching between the full view and the split (details) view keeps the tab,
    and announces every change as a pair of target state names. */
module KeepTab {
  import opened Wrappers

  /** The router as the service sees it: the name of the current state, and the
      state-matching test behind `$state.includes`, left abstract. */
  datatype Router = Router(current: string, includes: string -> bool)

  /** One announcement: the state to open in the full view and in the split view. */
  datatype Notification = Notification(show: string, details: string)

  /** The service: the remembered tab and every announcement made so far (the replay
      subject's history). */
  datatype KeepTabState = KeepTabState(currentTab: string, emitted: seq<Notification>)

  const ShowPrefix := "work-packages.show."
  const DetailsPrefix := "work-packages.list.details."
  const ShowActivity := "work-packages.show.activity"
  const ShowPattern := "work-packages.show.*"
  const DetailsPattern := "work-packages.list.details.*"

  /** The full view has no overview tab and shows the activity instead. */
  function ShowTab(tab: string): (r: string)
    ensures r != "overview"
    ensures r == tab <==> tab != "overview"
    ensures tab == "overview" ==> r == "activity"
  {
    if tab == "overview" then "activity" else tab
  }

  /** `currentShowState`: the full-view state, from which the full view's tab can be
      read back after the prefix. */
  function ShowState(tab: string): (r: string)
    ensures |r| == |ShowPrefix| + |ShowTab(tab)|
    ensures r[..|ShowPrefix|] == ShowPrefix && r[|ShowPrefix|..] == ShowTab(tab)
  {
    ShowPrefix + ShowTab(tab)
  }

  /** `currentDetailsState`: the split-view state, from which the tab can be read
      back after the prefix. */
  function DetailsState(tab: string): (r: string)
    ensures |r| == |DetailsPrefix| + |tab|
    ensures r[..|DetailsPrefix|] == DetailsPrefix && r[|DetailsPrefix|..] == tab
  {
    DetailsPrefix + tab
  }

  /** The record announcing a tab: the split-view state names the tab itself and the
      full-view state the full view's tab. */
  function Announcement(tab: string): (n: Notification)
    ensures |n.details| >= |DetailsPrefix| && n.details[|DetailsPrefix|..] == tab
    ensures |n.show| >= |ShowPrefix| && n.show[|ShowPrefix|..] == ShowTab(tab)
  {
    Notification(ShowState(tab), DetailsState(tab))
  }

  /** The text after the last `.` of a state name, the whole name if it has none
      (`split('.').pop()`). */
  function LastSegment(name: string): (r: string)
    ensures '.' !in r
    ensures |r| <= |name| && name[|name| - |r|..] == r
    ensures |r| < |name| ==> name[|name| - |r| - 1] == '.'
  {
    if name == [] || name[|name| - 1] == '.' then
      []
    else
      var r := LastSegment(name[..|name| - 1]) + [name[|name| - 1]];
      assert name[|name| - |r|..] == name[..|name| - 1][|name| - |r|..] + [name[|name| - 1]];
      r
  }

  /** The last segment of `prefix.tab` is `tab` when `tab` has no dot. */
  lemma {:induction false} LastSegmentAfterDot(prefix: string, tab: string)
    requires '.' !in tab
    ensures LastSegment(prefix + "." + tab) == tab
    decreases |tab|
  {
    var name := prefix + "." + tab;
    if tab == [] {
      assert name[|name| - 1] == '.';
    } else {
      var init := tab[..|tab| - 1];
      assert name[..|name| - 1] == prefix + "." + init;
      assert name[|name| - 1] == tab[|tab| - 1];
      LastSegmentAfterDot(prefix, init);
      assert init + [tab[|tab| - 1]] == tab;
    }
  }

  /** The announced states name the tab they were built from. */
  lemma AnnouncementNamesTab(tab: string)
    requires '.' !in tab
    ensures LastSegment(Announcement(tab).details) == tab
    ensures LastSegment(Announcement(tab).show) == ShowTab(tab)
  {
    assert DetailsPrefix == "work-packages.list.details" + ".";
    assert ShowPrefix == "work-packages.show" + ".";
    LastSegmentAfterDot("work-packages.list.details", tab);
    LastSegmentAfterDot("work-packages.show", ShowTab(tab));
  }

  /** `notify`: keeps every earlier record and adds one that names the remembered tab
      for the split view and the full view's tab for the full view. */
  function Notify(s: KeepTabState): (r: KeepTabState)
    ensures r.currentTab == s.currentTab
    ensures |r.emitted| == |s.emitted| + 1 && r.emitted[..|s.emitted|] == s.emitted
    ensures r.emitted[|s.emitted|] == Announcement(s.currentTab)
    ensures r.emitted[|s.emitted|].show != ShowPrefix + "overview"
  {
    var n := Announcement(s.currentTab);
    NeverShowsOverview(s.currentTab);
    var r := s.(emitted := s.emitted + [n]);
    assert r.emitted[..|s.emitted|] == s.emitted;
    r
  }

  /** The record a notification adds names the remembered tab: its split-view state
      ends in that tab, and its full-view state in the full view's tab. */
  lemma NotifyNamesTab(s: KeepTabState)
    requires '.' !in s.currentTab
    ensures var n := Notify(s).emitted[|s.emitted|];
      LastSegment(n.details) == s.currentTab && LastSegment(n.show) == ShowTab(s.currentTab)
  {
    AnnouncementNamesTab(s.currentTab);
  }

  /** `updateTab`: when the current state matches `pattern`, take its last segment
      as the tab and announce it; otherwise leave everything as it is. */
  function UpdateTab(s: KeepTabState, router: Router, pattern: string): (r: KeepTabState)
    ensures router.includes(pattern) ==>
      && r.currentTab == LastSegment(router.current)
      && r.emitted == s.emitted + [Announcement(LastSegment(router.current))]
    ensures !router.includes(pattern) ==> r == s
  {
    if router.includes(pattern) then
      Notify(s.(currentTab := LastSegment(router.current)))
    else
      s
  }

  /** `updateTabs`: the move from the full view's activity tab is shown as the split
      view's overview; any other move consults the router for both views. */
  function UpdateTabs(s: KeepTabState, router: Router, toState: Option<string>): (r: KeepTabState)
    ensures toState == Some(ShowActivity) ==>
      r == KeepTabState("overview", s.emitted + [Notification(ShowActivity, DetailsPrefix + "overview")])
    ensures toState != Some(ShowActivity) ==>
      && |r.emitted| == |s.emitted| + (if router.includes(ShowPattern) then 1 else 0)
                                    + (if router.includes(DetailsPattern) then 1 else 0)
      && r.emitted[..|s.emitted|] == s.emitted
      && (router.includes(ShowPattern) || router.includes(DetailsPattern) ==>
            r.currentTab == LastSegment(router.current))
      && (!router.includes(ShowPattern) && !router.includes(DetailsPattern) ==> r == s)
      && (forall i :: |s.emitted| <= i < |r.emitted| ==> r.emitted[i] == Announcement(r.currentTab))
  {
    if toState == Some(ShowActivity) then
      assert ShowState("overview") == ShowActivity;
      Notify(s.(currentTab := "overview"))
    else
      UpdateTab(UpdateTab(s, router, ShowPattern), router, DetailsPattern)
  }

  /** The service right after construction: tab `overview`, then the first update.
      It has announced one record per matching view pattern, each coherent, the last
      one for the remembered tab; with no match it still remembers `overview`. */
  function Create(router: Router): (r: KeepTabState)
    ensures |r.emitted| == (if router.includes(ShowPattern) then 1 else 0)
                         + (if router.includes(DetailsPattern) then 1 else 0)
    ensures AllCoherent(r.emitted)
    ensures r.emitted != [] ==> r.emitted[|r.emitted| - 1] == Announcement(r.currentTab)
    ensures !router.includes(ShowPattern) && !router.includes(DetailsPattern) ==> r.currentTab == "overview"
  {
    var s := KeepTabState("overview", []);
    UpdateTabsCoherent(s, router, None);
    UpdateTabs(s, router, None)
  }

  /** Announcements of different tabs differ: a record determines its tab. */
  lemma AnnouncementInjective(a: string, b: string)
    requires Announcement(a) == Announcement(b)
    ensures a == b
  {
    assert Announcement(a).details[|DetailsPrefix|..] == a;
    assert Announcement(b).details[|DetailsPrefix|..] == b;
  }

  /** Every announcement pairs a split-view state and the full-view state of the same
      tab. */
  ghost predicate Coherent(n: Notification)
  {
    exists tab :: n == Announcement(tab)
  }

  ghost predicate AllCoherent(log: seq<Notification>)
  {
    forall i :: 0 <= i < |log| ==> Coherent(log[i])
  }

  /** Appending an announcement keeps the log coherent. */
  lemma {:induction false} AppendCoherent(log: seq<Notification>, tab: string)
    requires AllCoherent(log)
    ensures AllCoherent(log + [Announcement(tab)])
  {
    assert Coherent(Announcement(tab));
    assert forall i :: 0 <= i < |log| ==> (log + [Announcement(tab)])[i] == log[i];
  }

  /** One `updateTab` step keeps the log coherent, and a new record describes the
      remembered tab. */
  lemma {:induction false} UpdateTabCoherent(s: KeepTabState, router: Router, pattern: string)
    requires AllCoherent(s.emitted)
    ensures var r := UpdateTab(s, router, pattern);
      && AllCoherent(r.emitted)
      && (|r.emitted| > |s.emitted| ==> r.emitted[|r.emitted| - 1] == Announcement(r.currentTab))
  {
    var r := UpdateTab(s, router, pattern);
    if router.includes(pattern) {
      var log := s.emitted + [Announcement(r.currentTab)];
      assert r.emitted == log;
      AppendCoherent(s.emitted, r.currentTab);
      assert AllCoherent(log);
      assert log[|log| - 1] == Announcement(r.currentTab);
    } else {
      assert r.emitted == s.emitted;
    }
  }

  /** Announcements stay coherent whatever the router does, and the newest one always
      describes the remembered tab. */
  lemma {:induction false} UpdateTabsCoherent(s: KeepTabState, router: Router, toState: Option<string>)
    requires AllCoherent(s.emitted)
    ensures var r := UpdateTabs(s, router, toState);
      && AllCoherent(r.emitted)
      && (|r.emitted| > |s.emitted| ==> r.emitted[|r.emitted| - 1] == Announcement(r.currentTab))
  {
    if toState == Some(ShowActivity) {
      AppendCoherent(s.emitted, "overview");
    } else {
      var s1 := UpdateTab(s, router, ShowPattern);
      UpdateTabCoherent(s, router, ShowPattern);
      UpdateTabCoherent(s1, router, DetailsPattern);
    }
  }

  /** The full view is never sent to the non-existent overview tab. */
  lemma NeverShowsOverview(tab: string)
    ensures ShowState(tab) != ShowPrefix + "overview"
  {
    assert ShowState(tab)[|ShowPrefix|..] == ShowTab(tab);
    assert (ShowPrefix + "overview")[|ShowPrefix|..] == "overview";
  }

  /** A freshly created service on a split-view state remembers that state's tab. */
  lemma CreateOnDetails(router: Router, tab: string)
    requires '.' !in tab
    requires router.current == DetailsState(tab)
    requires router.includes(DetailsPattern) && !router.includes(ShowPattern)
    ensures Create(router) == KeepTabState(tab, [Announcement(tab)])
  {
    AnnouncementNamesTab(tab);
  }
}

=== FILE: multi_select.dfy ===
/** The option logic of the multi-select edit field: the options offered, their
    value-option projection, the selection shown for the changeset's value, the value
    written back for a selection, and whether the current value is acceptable. */
module MultiSelectField {
  import opened Wrappers
  import opened NameOrder

  /** An allowed value as the server sends it: a HAL resource with a name, a link
      (`null` for the empty option) and a resource type. */
  datatype Resource = Resource(name: string, href: Option<string>, halType: Option<string>)

  /** What the select box tracks: the name and the link of an option. */
  datatype ValueOption = ValueOption(name: string, href: Option<string>)

  /** The field's value in the changeset: nothing, one resource, or a list of them. */
  datatype FieldValue = Absent | One(item: Resource) | Many(items: seq<Resource>)

  /** The selection shown by the select box: one option, or a list in multi mode. */
  datatype Selected = Single(option: ValueOption) | Multiple(chosen: seq<ValueOption>)

  /** Where the schema's allowed values come from: given inline, behind a link that
      loads a collection, or not given at all. */
  datatype AllowedValues = Inline(values: seq<Resource>) | Linked(elements: seq<Resource>) | Unspecified

  datatype Field = Field(
    required: bool,
    placeholder: string,
    isMultiselect: bool,
    options: seq<Resource>,
    valueOptions: seq<ValueOption>,
    selectedOption: Selected,
    value: FieldValue,
    currentValueInvalid: bool)

  /** The empty option, named by the placeholder text and linking nowhere. */
  function NullOption(placeholder: string): Resource
  {
    Resource(placeholder, None, None)
  }

  function Project(o: Resource): ValueOption
  {
    ValueOption(o.name, o.href)
  }

  function NullValueOption(placeholder: string): ValueOption
  {
    Project(NullOption(placeholder))
  }

  // ---------------------------------------------------------------------------
  // Searching lists (lodash's `_.find` and `_.some`)

  /** `i` is the position of the first element of `xs` satisfying `p`. */
  predicate IsFirst<T>(xs: seq<T>, p: T -> bool, i: int)
  {
    0 <= i < |xs| && p(xs[i]) && forall j :: 0 <= j < i ==> !p(xs[j])
  }

  /** The first element satisfying `p`, if any. */
  function Find<T>(xs: seq<T>, p: T -> bool): (r: Option<T>)
    ensures r.None? <==> forall i :: 0 <= i < |xs| ==> !p(xs[i])
    ensures r.Some? ==> exists i :: IsFirst(xs, p, i) && xs[i] == r.value
  {
    if xs == [] then None
    else if p(xs[0]) then
      assert IsFirst(xs, p, 0);
      Some(xs[0])
    else
      var r := Find(xs[1..], p);
      assert forall i :: 1 <= i < |xs| ==> xs[i] == xs[1..][i - 1];
      assert r.Some? ==> exists i :: IsFirst(xs, p, i) && xs[i] == r.value by {
        if r.Some? {
          var k :| IsFirst(xs[1..], p, k) && xs[1..][k] == r.value;
          assert IsFirst(xs, p, k + 1);
        }
      }
      r
  }

  predicate Any<T>(xs: seq<T>, p: T -> bool)
  {
    Find(xs, p).Some?
  }

  predicate Offered(options: seq<Resource>, href: Option<string>)
  {
    exists i :: 0 <= i < |options| && options[i].href == href
  }

  /** `options[i]` is the first option linking to `href`. */
  predicate FirstOffered(options: seq<Resource>, href: Option<string>, i: int)
  {
    0 <= i < |options| && options[i].href == href && forall j :: 0 <= j < i ==> options[j].href != href
  }

  /** `valueOptions[i]` is the first value option linking to `href`. */
  predicate FirstValueOption(valueOptions: seq<ValueOption>, href: Option<string>, i: int)
  {
    0 <= i < |valueOptions| && valueOptions[i].href == href
    && forall j :: 0 <= j < i ==> valueOptions[j].href != href
  }

  // ---------------------------------------------------------------------------
  // Options

  /** Prepends the empty option unless the field is required or some option already
      carries the placeholder's name. */
  function AddEmptyOption(options: seq<Resource>, required: bool, placeholder: string): (r: seq<Resource>)
    ensures required ==> r == options
    ensures !required ==> exists i :: 0 <= i < |r| && r[i].name == placeholder
    ensures !required && (forall i :: 0 <= i < |options| ==> options[i].name != placeholder) ==>
      r == [NullOption(placeholder)] + options
    ensures (exists i :: 0 <= i < |options| && options[i].name == placeholder) ==> r == options
  {
    if required then options
    else if Find(options, (o: Resource) => o.name == placeholder).None? then
      var r := [NullOption(placeholder)] + options;
      assert r[0].name == placeholder;
      r
    else options
  }

  lemma AddEmptyOptionIdempotent(options: seq<Resource>, required: bool, placeholder: string)
    ensures var once := AddEmptyOption(options, required, placeholder);
      AddEmptyOption(once, required, placeholder) == once
  {
  }

  predicate SortedByName(xs: seq<Resource>)
  {
    forall i, j :: 0 <= i < j < |xs| ==> NameLeq(xs[i].name, xs[j].name)
  }

  function Insert(x: Resource, xs: seq<Resource>): (r: seq<Resource>)
    requires SortedByName(xs)
    ensures SortedByName(r)
    ensures multiset(r) == multiset(xs) + multiset{x}
    ensures |r| == |xs| + 1
    ensures forall y :: y in r ==> y == x || y in xs
  {
    if xs == [] then [x]
    else if NameLeq(x.name, xs[0].name) then
      assert forall j :: 0 < j < |xs| ==> NameLeq(x.name, xs[j].name) by {
        forall j | 0 < j < |xs| {
          NameLeqTrans(x.name, xs[0].name, xs[j].name);
        }
      }
      assert xs == [xs[0]] + xs[1..];
      [x] + xs
    else
      NameLeqTotal(x.name, xs[0].name);
      var rest := Insert(x, xs[1..]);
      assert forall y :: y in rest ==> NameLeq(xs[0].name, y.name);
      assert xs == [xs[0]] + xs[1..];
      [xs[0]] + rest
  }

  /** The options sorted by lower-cased name (a stable insertion sort). */
  function SortByName(xs: seq<Resource>): (r: seq<Resource>)
    ensures SortedByName(r)
    ensures multiset(r) == multiset(xs)
  {
    if xs == [] then []
    else
      assert xs == [xs[0]] + xs[1..];
      Insert(xs[0], SortByName(xs[1..]))
  }

  function ValueOptions(options: seq<Resource>): (r: seq<ValueOption>)
    ensures |r| == |options|
    ensures forall i :: 0 <= i < |r| ==> r[i].name == options[i].name && r[i].href == options[i].href
  {
    seq(|options|, i requires 0 <= i < |options| => Project(options[i]))
  }

  // ---------------------------------------------------------------------------
  // From the changeset's value to the selection, and back

  /** The value option with the resource's link, else the empty option. */
  function FindValueOption(valueOptions: seq<ValueOption>, placeholder: string, option: Option<Resource>): (r: ValueOption)
    ensures option.None? ==> r == NullValueOption(placeholder)
    ensures option.Some? && (exists i :: 0 <= i < |valueOptions| && valueOptions[i].href == option.value.href) ==>
      exists i :: FirstValueOption(valueOptions, option.value.href, i) && r == valueOptions[i]
    ensures option.Some? && (forall i :: 0 <= i < |valueOptions| ==> valueOptions[i].href != option.value.href) ==>
      r == NullValueOption(placeholder)
  {
    match option
    case None => NullValueOption(placeholder)
    case Some(res) =>
      var p := (vo: ValueOption) => vo.href == res.href;
      var found := Find(valueOptions, p);
      assert found.Some? ==> exists i :: FirstValueOption(valueOptions, res.href, i) && found.value == valueOptions[i] by {
        if found.Some? {
          var i :| IsFirst(valueOptions, p, i) && valueOptions[i] == found.value;
          assert FirstValueOption(valueOptions, res.href, i);
        }
      }
      found.GetOr(NullValueOption(placeholder))
  }

  /** The selection the select box shows for the changeset's value. */
  function BuildSelectedOption(value: FieldValue, multi: bool, valueOptions: seq<ValueOption>, placeholder: string): (r: Selected)
    ensures r.Multiple? <==> multi
    ensures multi && value.Many? ==>
      && |r.chosen| == |value.items|
      && forall i :: 0 <= i < |value.items| ==>
           r.chosen[i] == FindValueOption(valueOptions, placeholder, Some(value.items[i]))
    ensures multi && value.One? ==> r.chosen == [FindValueOption(valueOptions, placeholder, Some(value.item))]
    ensures multi && value.Absent? ==> r.chosen == [NullValueOption(placeholder)]
    ensures !multi ==> r.option == (match value
      case Absent => NullValueOption(placeholder)
      case One(res) => FindValueOption(valueOptions, placeholder, Some(res))
      case Many(s) => if s == [] then NullValueOption(placeholder) else FindValueOption(valueOptions, placeholder, Some(s[0])))
  {
    if multi then
      match value
      case Many(s) => Multiple(seq(|s|, i requires 0 <= i < |s| => FindValueOption(valueOptions, placeholder, Some(s[i]))))
      case One(res) => Multiple([FindValueOption(valueOptions, placeholder, Some(res))])
      case Absent => Multiple([FindValueOption(valueOptions, placeholder, None)])
    else
      match value
      case One(res) => Single(FindValueOption(valueOptions, placeholder, Some(res)))
      case Absent => Single(FindValueOption(valueOptions, placeholder, None))
      case Many(s) => if |s| > 0 then Single(FindValueOption(valueOptions, placeholder, Some(s[0]))) else Single(NullValueOption(placeholder))
  }

  /** Angular's empty-string link stands for `null`. */
  function NormalizeHref(o: Resource): (r: Resource)
    ensures r.name == o.name && r.halType == o.halType
    ensures o.href != Some("") ==> r == o
    ensures r.href != Some("")
  {
    if o.href == Some("") then o.(href := None) else o
  }

  /** The option behind one chosen value option: the first option with the same link,
      else the empty option. */
  function OptionFor(options: seq<Resource>, placeholder: string, vo: ValueOption): (r: Resource)
    ensures Offered(options, vo.href) ==>
      exists i :: FirstOffered(options, vo.href, i) && r == NormalizeHref(options[i])
    ensures !Offered(options, vo.href) ==> r == NullOption(placeholder)
  {
    var p := (o: Resource) => o.href == vo.href;
    var found := Find(options, p);
    assert found.Some? ==> exists i :: FirstOffered(options, vo.href, i) && found.value == options[i] by {
      if found.Some? {
        var i :| IsFirst(options, p, i) && options[i] == found.value;
        assert FirstOffered(options, vo.href, i);
      }
    }
    NormalizeHref(found.GetOr(NullOption(placeholder)))
  }

  /** `_.castArray`: a single option becomes a one-element list, a list stays as it
      is. */
  function CastArray(sel: Selected): (r: seq<ValueOption>)
    ensures |r| == (if sel.Single? then 1 else |sel.chosen|)
    ensures forall vo :: vo in r <==> (if sel.Single? then vo == sel.option else vo in sel.chosen)
    ensures sel.Multiple? ==> r == sel.chosen
  {
    match sel
    case Single(vo) => [vo]
    case Multiple(vos) => vos
  }

  /** The `selectedOption` setter: remembers the selection and writes the matching
      options to the changeset, always as a list. */
  function SelectOption(f: Field, sel: Selected): (r: Field)
    ensures r == f.(selectedOption := sel, value := r.value)
    ensures r.value.Many? && |r.value.items| == |CastArray(sel)|
    ensures forall i :: 0 <= i < |CastArray(sel)| ==>
      var vo := CastArray(sel)[i];
      && (Offered(f.options, vo.href) ==>
            exists j :: FirstOffered(f.options, vo.href, j) && r.value.items[i] == NormalizeHref(f.options[j]))
      && (!Offered(f.options, vo.href) ==> r.value.items[i] == NullOption(f.placeholder))
  {
    var chosen := CastArray(sel);
    var items := seq(|chosen|, i requires 0 <= i < |chosen| => OptionFor(f.options, f.placeholder, chosen[i]));
    assert forall i :: 0 <= i < |chosen| ==> items[i] == OptionFor(f.options, f.placeholder, chosen[i]);
    f.(selectedOption := sel, value := Many(items))
  }

  /** The `value` getter: in single mode a list shows as its first element. */
  function Shown(value: FieldValue, multi: bool): (r: FieldValue)
    ensures multi || !value.Many? ==> r == value
    ensures !multi && value.Many? && value.items != [] ==> r == One(value.items[0])
    ensures !multi && value == Many([]) ==> r == Absent
  {
    match value
    case Many(s) => if multi then value else if s == [] then Absent else One(s[0])
    case _ => value
  }

  /** `isValueMulti`: the value is a list of at least two resources; single mode
      would show only its first element and hide the rest. A lone resource has no
      length and is never multi. */
  predicate IsValueMulti(value: FieldValue): (r: bool)
    ensures r ==> value.Many? && value.items != [] && value.items[1..] != [] && Shown(value, false) == One(value.items[0])
    ensures value.One? || value.Absent? ==> !r
    ensures value.Many? && |value.items| > 1 ==> r
  {
    value.Many? && |value.items| > 1
  }

  /** Whether the current value is flagged invalid. With no value (`null`, or an empty
      list read in single mode) that is exactly when the field is required; a list —
      even an empty one — is invalid when none of its links is offered; a single
      resource is invalid when its link is not offered. */
  function ValueInvalid(options: seq<Resource>, value: FieldValue, multi: bool, required: bool): (r: bool)
    ensures Shown(value, multi).Absent? ==> r == required
    ensures Shown(value, multi).One? ==> (r <==> !Offered(options, Shown(value, multi).item.href))
    ensures Shown(value, multi).Many? ==>
      (r <==> forall i :: 0 <= i < |value.items| ==> !Offered(options, value.items[i].href))
  {
    var hrefOffered := (h: Option<string>) => Any(options, (o: Resource) => o.href == h);
    match Shown(value, multi)
    case Absent => required
    case One(res) => !hrefOffered(res.href)
    case Many(s) =>
      var r := !Any(s, (v: Resource) => hrefOffered(v.href));
      assert r <==> forall i :: 0 <= i < |s| ==> !Offered(options, s[i].href) by {
        forall i | 0 <= i < |s| ensures hrefOffered(s[i].href) <==> Offered(options, s[i].href) {
          if Offered(options, s[i].href) {
            var j :| 0 <= j < |options| && options[j].href == s[i].href;
            assert options[j] in options;
          }
        }
      }
      r
  }

  /** `checkCurrentValueValidity`: recomputes the flag and changes nothing else. With
      no shown value the flag is the required flag; a shown resource is invalid when
      its link is not offered. */
  function CheckCurrentValueValidity(f: Field): (r: Field)
    ensures r == f.(currentValueInvalid := r.currentValueInvalid)
    ensures Shown(f.value, f.isMultiselect).Absent? ==> r.currentValueInvalid == f.required
    ensures Shown(f.value, f.isMultiselect).One? ==>
      (r.currentValueInvalid <==> !Offered(f.options, Shown(f.value, f.isMultiselect).item.href))
    ensures Shown(f.value, f.isMultiselect).Many? ==>
      (r.currentValueInvalid <==> forall i :: 0 <= i < |f.value.items| ==> !Offered(f.options, f.value.items[i].href))
  {
    f.(currentValueInvalid := ValueInvalid(f.options, f.value, f.isMultiselect, f.required))
  }

  // ---------------------------------------------------------------------------
  // Life cycle

  /** Whether `addEmptyOption` prepends the empty option to these allowed values:
      the field is optional and no allowed value carries the placeholder's name. */
  predicate AddsEmptyOption(available: seq<Resource>, required: bool, placeholder: string)
  {
    !required && forall i :: 0 <= i < |available| ==> available[i].name != placeholder
  }

  /** The options after the empty option, when one was prepended. */
  function Listed(options: seq<Resource>, added: bool): seq<Resource>
    requires added ==> |options| > 0
  {
    if added then options[1..] else options
  }

  /** `options` are the allowed values, in some order, after the empty option when
      one is added. */
  predicate OffersAllowed(options: seq<Resource>, available: seq<Resource>, required: bool, placeholder: string)
  {
    var added := AddsEmptyOption(available, required, placeholder);
    && |options| == |available| + (if added then 1 else 0)
    && (added ==> options[0] == NullOption(placeholder))
    && multiset(Listed(options, added)) == multiset(available)
  }

  /** The options `setValues` installs offer the allowed values, sorted on request. */
  lemma OptionsOffered(available: seq<Resource>, required: bool, placeholder: string, sortValuesByName: bool)
    ensures var sorted := if sortValuesByName then SortByName(available) else available;
      var options := AddEmptyOption(sorted, required, placeholder);
      && OffersAllowed(options, available, required, placeholder)
      && (sortValuesByName ==> SortedByName(Listed(options, AddsEmptyOption(available, required, placeholder))))
      && (!sortValuesByName ==> Listed(options, AddsEmptyOption(available, required, placeholder)) == available)
  {
    if sortValuesByName {
      var sorted := SortByName(available);
      assert |sorted| == |multiset(sorted)| == |multiset(available)| == |available|;
      if AddsEmptyOption(available, required, placeholder) {
        SortedWithEmpty(available, placeholder);
      } else {
        SortedWithoutEmpty(available, required, placeholder);
      }
    }
  }

  /** `setValues`: installs the allowed values (sorted by name on request) plus the
      empty option, projects them, and rebuilds the selection and the validity flag. */
  function SetValues(f: Field, available: seq<Resource>, sortValuesByName: bool): (r: Field)
    ensures OffersAllowed(r.options, available, f.required, f.placeholder)
    ensures var listed := Listed(r.options, AddsEmptyOption(available, f.required, f.placeholder));
      && (sortValuesByName ==> SortedByName(listed))
      && (!sortValuesByName ==> listed == available)
    ensures Consistent(r)
    ensures r.currentValueInvalid == ValueInvalid(r.options, f.value, f.isMultiselect, f.required)
    ensures r == f.(options := r.options, valueOptions := r.valueOptions,
                    selectedOption := r.selectedOption, currentValueInvalid := r.currentValueInvalid)
  {
    var sorted := if sortValuesByName then SortByName(available) else available;
    var options := AddEmptyOption(sorted, f.required, f.placeholder);
    OptionsOffered(available, f.required, f.placeholder, sortValuesByName);
    var valueOptions := ValueOptions(options);
    var withOptions := f.(options := options, valueOptions := valueOptions);
    CheckCurrentValueValidity(withOptions.(selectedOption := BuildSelectedOption(f.value, f.isMultiselect, valueOptions, f.placeholder)))
  }

  /** Whether a loaded collection is one of projects, whose options are sorted. */
  predicate IsProjectCollection(elements: seq<Resource>)
  {
    |elements| > 0 && elements[0].halType == Some("Project")
  }

  /** `initialize`, with the placeholder text given and the allowed values already
      loaded: inline values keep their order, a loaded collection is sorted by name
      when it holds projects, and without allowed values only the empty option is
      offered, if the field is optional. */
  function Initialize(required: bool, placeholder: string, value: FieldValue, allowed: AllowedValues): (r: Field)
    ensures r.isMultiselect <==> IsValueMulti(value)
    ensures r.value == value && r.required == required && r.placeholder == placeholder
    ensures allowed.Inline? ==>
      && OffersAllowed(r.options, allowed.values, required, placeholder)
      && Listed(r.options, AddsEmptyOption(allowed.values, required, placeholder)) == allowed.values
    ensures allowed.Linked? ==>
      && OffersAllowed(r.options, allowed.elements, required, placeholder)
      && var listed := Listed(r.options, AddsEmptyOption(allowed.elements, required, placeholder));
         && (IsProjectCollection(allowed.elements) ==> SortedByName(listed))
         && (!IsProjectCollection(allowed.elements) ==> listed == allowed.elements)
    ensures allowed.Unspecified? ==> r.options == (if required then [] else [NullOption(placeholder)])
  {
    var f := Field(required, placeholder, IsValueMulti(value), [], [], Multiple([]), value, false);
    match allowed
    case Inline(values) => SetValues(f, values, false)
    case Linked(elements) => SetValues(f, elements, IsProjectCollection(elements))
    case Unspecified => SetValues(f, [], false)
  }

  /** `toggleMultiselect`: flips the mode and rebuilds the selection. */
  function ToggleMultiselect(f: Field): (r: Field)
    ensures r.isMultiselect == !f.isMultiselect
    ensures r.selectedOption.Multiple? == r.isMultiselect
    ensures r == f.(isMultiselect := r.isMultiselect, selectedOption := r.selectedOption)
  {
    f.(isMultiselect := !f.isMultiselect,
       selectedOption := BuildSelectedOption(f.value, !f.isMultiselect, f.valueOptions, f.placeholder))
  }

  /** The value options are the projection of the options, and the selection is the
      one built from the value in the current mode. */
  predicate Consistent(f: Field)
  {
    && f.valueOptions == ValueOptions(f.options)
    && f.selectedOption == BuildSelectedOption(f.value, f.isMultiselect, f.valueOptions, f.placeholder)
  }

  // ---------------------------------------------------------------------------
  // Properties

  /** Initialization leaves a consistent field whose validity flag is up to date. */
  lemma InitializeConsistent(required: bool, placeholder: string, value: FieldValue, allowed: AllowedValues)
    ensures var f := Initialize(required, placeholder, value, allowed);
      && Consistent(f)
      && f.currentValueInvalid == ValueInvalid(f.options, value, f.isMultiselect, required)
  {
  }

  /** Sorted options: the empty option (when added) comes first, and the rest is the
      allowed values reordered by name. */
  lemma SortedOptions(f: Field, available: seq<Resource>)
    ensures var r := SetValues(f, available, true);
      if !f.required && forall i :: 0 <= i < |available| ==> available[i].name != f.placeholder then
        && r.options[0] == NullOption(f.placeholder)
        && SortedByName(r.options[1..])
        && multiset(r.options[1..]) == multiset(available)
      else
        SortedByName(r.options) && multiset(r.options) == multiset(available)
  {
    if !f.required && forall i :: 0 <= i < |available| ==> available[i].name != f.placeholder {
      SortedWithEmpty(available, f.placeholder);
    } else {
      SortedWithoutEmpty(available, f.required, f.placeholder);
    }
  }

  lemma SortedWithEmpty(available: seq<Resource>, placeholder: string)
    requires forall i :: 0 <= i < |available| ==> available[i].name != placeholder
    ensures var o := AddEmptyOption(SortByName(available), false, placeholder);
      o == [NullOption(placeholder)] + SortByName(available)
  {
    var sorted := SortByName(available);
    forall i | 0 <= i < |sorted| ensures sorted[i].name != placeholder {
      assert sorted[i] in multiset(available);
      assert sorted[i] in available;
    }
  }

  lemma SortedWithoutEmpty(available: seq<Resource>, required: bool, placeholder: string)
    requires required || exists i :: 0 <= i < |available| && available[i].name == placeholder
    ensures AddEmptyOption(SortByName(available), required, placeholder) == SortByName(available)
  {
    if !required {
      var sorted := SortByName(available);
      var i :| 0 <= i < |available| && available[i].name == placeholder;
      assert available[i] in multiset(sorted);
      var j :| 0 <= j < |sorted| && sorted[j] == available[i];
    }
  }

  /** Toggling twice restores a consistent field. */
  lemma ToggleTwice(f: Field)
    requires Consistent(f)
    ensures Consistent(ToggleMultiselect(f))
    ensures ToggleMultiselect(ToggleMultiselect(f)) == f
  {
  }

  /** Writing back the multi-mode selection built from a list value keeps every link,
      as long as every link is offered and none is the empty string. */
  lemma SelectionRoundTrip(f: Field)
    requires Consistent(f) && f.isMultiselect && f.value.Many?
    requires forall i :: 0 <= i < |f.value.items| ==>
      Offered(f.options, f.value.items[i].href) && f.value.items[i].href != Some("")
    ensures var r := SelectOption(f, f.selectedOption);
      && |r.value.items| == |f.value.items|
      && forall i :: 0 <= i < |f.value.items| ==> r.value.items[i].href == f.value.items[i].href
  {
    var s := f.value.items;
    var vos := f.valueOptions;
    forall i | 0 <= i < |s| ensures CastArray(f.selectedOption)[i].href == s[i].href {
      var j :| 0 <= j < |f.options| && f.options[j].href == s[i].href;
      assert vos[j].href == s[i].href;
    }
  }

  /** In single mode, choosing an option and reading the value back yields that option's
      resource, never a list. */
  lemma SelectThenRead(f: Field, vo: ValueOption)
    ensures var r := SelectOption(f, Single(vo));
      Shown(r.value, false) == One(OptionFor(f.options, f.placeholder, vo))
  {
  }

  /** An empty list read in multi mode is a value, and one with no offered link. */
  lemma EmptyListInvalid(options: seq<Resource>, required: bool)
    ensures ValueInvalid(options, Many([]), true, required)
    ensures ValueInvalid(options, Many([]), false, required) == required
  {
  }
}

=== FILE: name_order.dfy ===
/** The order the multi-select field sorts project options by: names compared after
    lower-casing, character by character, as JavaScript compares strings. */
module NameOrder {
  /** Lower-casing of the ASCII capitals; every other character is kept. */
  function LowerChar(c: char): (r: char)
    ensures 'A' <= c <= 'Z' ==> 'a' <= r <= 'z' && r as int == c as int + 32
    ensures !('A' <= c <= 'Z') ==> r == c
  {
    if 'A' <= c <= 'Z' then (c as int + 32) as char else c
  }

  function LowerCase(s: string): (r: string)
    ensures |r| == |s|
    ensures forall i :: 0 <= i < |s| ==> r[i] == LowerChar(s[i])
  {
    seq(|s|, i requires 0 <= i < |s| => LowerChar(s[i]))
  }

  /** Lexicographic order on character codes: a proper prefix comes first. */
  predicate StrLeq(a: string, b: string)
  {
    a == [] || (b != [] && (a[0] < b[0] || (a[0] == b[0] && StrLeq(a[1..], b[1..]))))
  }

  lemma {:induction false} StrLeqTotal(a: string, b: string)
    ensures StrLeq(a, b) || StrLeq(b, a)
  {
    if a != [] && b != [] && a[0] == b[0] {
      StrLeqTotal(a[1..], b[1..]);
    }
  }

  lemma {:induction false} StrLeqTrans(a: string, b: string, c: string)
    requires StrLeq(a, b) && StrLeq(b, c)
    ensures StrLeq(a, c)
  {
    if a != [] && a[0] == b[0] && b[0] == c[0] {
      StrLeqTrans(a[1..], b[1..], c[1..]);
    }
  }

  /** Two names in the order of the sort comparator: compared lower-cased. */
  predicate NameLeq(a: string, b: string)
  {
    StrLeq(LowerCase(a), LowerCase(b))
  }

  lemma NameLeqTotal(a: string, b: string)
    ensures NameLeq(a, b) || NameLeq(b, a)
  {
    StrLeqTotal(LowerCase(a), LowerCase(b));
  }

  lemma NameLeqTrans(a: string, b: string, c: string)
    requires NameLeq(a, b) && NameLeq(b, c)
    ensures NameLeq(a, c)
  {
    StrLeqTrans(LowerCase(a), LowerCase(b), LowerCase(c));
  }

  /** Names differing only in the case of ASCII letters sort as equals. */
  lemma CaseInsensitive(a: string, b: string)
    requires |a| == |b|
    requires forall i :: 0 <= i < |a| ==> LowerChar(a[i]) == LowerChar(b[i])
    ensures NameLeq(a, b) && NameLeq(b, a)
  {
    assert LowerCase(a) == LowerCase(b);
    StrLeqRefl(LowerCase(a));
  }

  lemma {:induction false} StrLeqRefl(a: string)
    ensures StrLeq(a, a)
  {
    if a != [] {
      StrLeqRefl(a[1..]);
    }
  }
}

=== FILE: path_builder.dfy ===
/** The path builder of the API layer: a configuration tree of URI templates becomes a
    tree of callables producing resource paths.  Templates use literal characters and
    path-segment expressions `{/name}` (section 3.2.6 of RFC 6570): an undefined
    variable expands to nothing, a defined one to `/` followed by its value. */
module PathBuilder {
  import opened Wrappers

  /** One template element: a literal character or a `{/name}` expression. */
  datatype Part = Literal(c: char) | Segment(name: string)

  type Template = seq<Part>

  /** Characters of a variable name (section 2.3 of RFC 6570, without percent-encoded
      triplets and dots). */
  predicate IsVarChar(c: char)
  {
    'a' <= c <= 'z' || 'A' <= c <= 'Z' || '0' <= c <= '9' || c == '_'
  }

  predicate IsVarName(n: string)
  {
    n != [] && forall j :: 0 <= j < |n| ==> IsVarChar(n[j])
  }

  /** Braces never occur as literals (section 2.1 of RFC 6570). */
  predicate IsLiteralChar(c: char)
  {
    c != '{' && c != '}'
  }

  predicate WellFormedPart(p: Part)
  {
    match p
    case Literal(c) => IsLiteralChar(c)
    case Segment(n) => IsVarName(n)
  }

  predicate WellFormed(t: Template)
  {
    forall i :: 0 <= i < |t| ==> WellFormedPart(t[i])
  }

  function PartText(p: Part): string
  {
    match p
    case Literal(c) => [c]
    case Segment(n) => "{/" + n + "}"
  }

  /** The template text of `t`. */
  function Unparse(t: Template): string
  {
    if t == [] then "" else PartText(t[0]) + Unparse(t[1..])
  }

  /** Length of the variable name at the front of `s`. */
  function NameLength(s: string): (n: nat)
    ensures n <= |s|
    ensures forall j :: 0 <= j < n ==> IsVarChar(s[j])
    ensures n < |s| ==> !IsVarChar(s[n])
  {
    if s != [] && IsVarChar(s[0]) then 1 + NameLength(s[1..]) else 0
  }

  /** Reads the template element at the front of `s`: the element and the number of
      characters it spans, or `None` for a stray brace or an unsupported expression. */
  function ReadPart(s: string): (r: (Option<Part>, nat))
    requires s != []
    ensures 1 <= r.1 <= |s|
    ensures r.0.Some? ==> WellFormedPart(r.0.value) && s == PartText(r.0.value) + s[r.1..]
  {
    if s[0] == '{' then
      var n := if |s| >= 2 && s[1] == '/' then NameLength(s[2..]) else 0;
      if 0 < n && 2 + n < |s| && s[2 + n] == '}' then
        SegmentText(s, n);
        (Some(Segment(s[2..2 + n])), 3 + n)
      else
        (None, 1)
    else if s[0] == '}' then
      (None, 1)
    else
      assert s == [s[0]] + s[1..];
      (Some(Literal(s[0])), 1)
  }

  /** Reads a template text; `None` for unbalanced braces and for expressions other
      than `{/name}`. */
  function Parse(s: string): (r: Option<Template>)
    ensures r.Some? ==> WellFormed(r.value) && Unparse(r.value) == s
    decreases |s|
  {
    if s == [] then
      Some([])
    else
      var (p, k) := ReadPart(s);
      if p.None? then
        None
      else
        match Parse(s[k..])
        case None => None
        case Some(t) =>
          UnparseCons(p.value, t);
          Some([p.value] + t)
  }

  lemma SegmentText(s: string, n: nat)
    requires 0 < n && 2 + n < |s| && s[0] == '{' && s[1] == '/' && s[2 + n] == '}'
    requires forall j :: 0 <= j < n ==> IsVarChar(s[2..][j])
    ensures IsVarName(s[2..2 + n])
    ensures s == PartText(Segment(s[2..2 + n])) + s[3 + n..]
  {
    assert forall j :: 0 <= j < n ==> s[2..2 + n][j] == s[2..][j];
    var name := s[2..2 + n];
    assert |name| == n && forall j :: 0 <= j < n ==> IsVarChar(name[j]);
    var r := PartText(Segment(s[2..2 + n])) + s[3 + n..];
    assert |r| == |s|;
    forall i | 0 <= i < |s|
      ensures r[i] == s[i]
    {
      if i >= 3 + n {
        assert r[i] == s[3 + n..][i - 3 - n];
      } else if 2 <= i < 2 + n {
        assert r[i] == s[2..2 + n][i - 2];
      }
    }
  }

  lemma UnparseCons(p: Part, t: Template)
    ensures Unparse([p] + t) == PartText(p) + Unparse(t)
    ensures WellFormedPart(p) && WellFormed(t) ==> WellFormed([p] + t)
  {
    assert ([p] + t)[1..] == t;
  }

  lemma NameLengthOf(n: string, rest: string)
    requires IsVarName(n)
    requires rest != [] && rest[0] == '}'
    ensures NameLength(n + rest) == |n|
    decreases |n|
  {
    if |n| > 1 {
      assert (n + rest)[1..] == n[1..] + rest;
      NameLengthOf(n[1..], rest);
    } else {
      assert (n + rest)[1..] == rest;
    }
  }

  /** Every well-formed template survives being written out and read back. */
  lemma {:induction false} ParseUnparse(t: Template)
    requires WellFormed(t)
    ensures Parse(Unparse(t)) == Some(t)
    decreases |t|
  {
    if t != [] {
      ParseUnparse(t[1..]);
      UnparseCons(t[0], t[1..]);
      assert [t[0]] + t[1..] == t;
      assert WellFormedPart(t[0]);
      match t[0]
      case Literal(c) => ParseLiteralCons(c, Unparse(t[1..]));
      case Segment(n) => ParseSegmentCons(n, Unparse(t[1..]));
    }
  }

  lemma ParseLiteralCons(c: char, tail: string)
    requires IsLiteralChar(c)
    ensures Parse([c] + tail) == (match Parse(tail) case None => None case Some(t) => Some([Literal(c)] + t))
  {
    assert ([c] + tail)[1..] == tail;
  }

  lemma ParseSegmentCons(n: string, tail: string)
    requires IsVarName(n)
    ensures Parse(PartText(Segment(n)) + tail)
         == (match Parse(tail) case None => None case Some(t) => Some([Segment(n)] + t))
  {
    var s := PartText(Segment(n)) + tail;
    assert s[0] == '{' && s[1] == '/';
    assert s[2..] == n + ("}" + tail);
    NameLengthOf(n, "}" + tail);
    assert s[2 + |n|] == '}';
    assert s[2..2 + |n|] == n;
    assert s[3 + |n|..] == tail;
  }

  /** The expansion of one element: a literal stands for itself, as in the template
      text; a segment drops out exactly when its variable is undefined, and is
      otherwise `/` followed by the value. */
  function ExpandPart(p: Part, params: map<string, string>): (r: string)
    ensures p.Literal? ==> r == PartText(p)
    ensures p.Segment? ==> (r == [] <==> p.name !in params)
    ensures p.Segment? && p.name in params ==> r[0] == '/' && r[1..] == params[p.name]
  {
    match p
    case Literal(c) => [c]
    case Segment(n) => if n in params then "/" + params[n] else ""
  }

  /** The expansion of a template, element by element; a template of literals alone
      expands to its own text. */
  function ExpandTemplate(t: Template, params: map<string, string>): (r: string)
    ensures (forall i :: 0 <= i < |t| ==> t[i].Literal?) ==> r == Unparse(t)
    decreases |t|
  {
    if t == [] then ""
    else
      assert forall i :: 0 <= i < |t| - 1 ==> t[1..][i] == t[i + 1];
      ExpandPart(t[0], params) + ExpandTemplate(t[1..], params)
  }

  /** The literal characters of a template, its expressions dropped. */
  function LiteralText(t: Template): string
  {
    if t == [] then ""
    else (if t[0].Literal? then [t[0].c] else "") + LiteralText(t[1..])
  }

  /** Expansion of a template text; `None` when the text is not a template. */
  function Expand(s: string, params: map<string, string>): (r: Option<string>)
    ensures r.Some? <==> Parse(s).Some?
    ensures r.Some? && params == map[] ==> r.value == LiteralText(Parse(s).value)
  {
    match Parse(s)
    case None => None
    case Some(t) =>
      assert params == map[] ==> ExpandTemplate(t, params) == LiteralText(t) by {
        if params == map[] {
          ExpandWithoutParams(t, params);
        }
      }
      Some(ExpandTemplate(t, params))
  }

  /** When none of its variables is given, a template expands to its literal
      characters alone. */
  lemma {:induction false} ExpandWithoutParams(t: Template, params: map<string, string>)
    requires forall i :: 0 <= i < |t| && t[i].Segment? ==> t[i].name !in params
    ensures ExpandTemplate(t, params) == LiteralText(t)
    decreases |t|
  {
    if t != [] {
      ExpandWithoutParams(t[1..], params);
    }
  }

  /** A template text without expressions expands to itself. */
  lemma ExpandLiteral(s: string, params: map<string, string>)
    requires IsLiteralText(s)
    ensures Expand(s, params) == Some(s)
  {
    ParseUnparse(LiteralTemplate(s));
  }

  function LiteralTemplate(s: string): (t: Template)
    requires IsLiteralText(s)
    ensures |t| == |s| && WellFormed(t) && Unparse(t) == s
    ensures forall i :: 0 <= i < |t| ==> t[i].Literal?
    ensures forall params :: ExpandTemplate(t, params) == s
    decreases |s|
  {
    if s == [] then []
    else
      var t := [Literal(s[0])] + LiteralTemplate(s[1..]);
      assert t[1..] == LiteralTemplate(s[1..]);
      assert s == [s[0]] + s[1..];
      t
  }

  lemma {:induction false} UnparseConcat(a: Template, b: Template)
    ensures Unparse(a + b) == Unparse(a) + Unparse(b)
    decreases |a|
  {
    if a != [] {
      assert (a + b)[1..] == a[1..] + b;
      UnparseConcat(a[1..], b);
    } else {
      assert a + b == b;
    }
  }

  lemma {:induction false} ExpandConcat(a: Template, b: Template, params: map<string, string>)
    ensures ExpandTemplate(a + b, params) == ExpandTemplate(a, params) + ExpandTemplate(b, params)
    decreases |a|
  {
    if a != [] {
      assert (a + b)[1..] == a[1..] + b;
      ExpandConcat(a[1..], b, params);
    } else {
      assert a + b == b;
    }
  }

  /** A configuration entry: a template alone, or a template with nested entries
      (the `[template, {children}]` form). */
  datatype PathConfig = Leaf(template: string) | Nested(template: string, children: map<string, PathConfig>)

  /** A built callable: the templates from the outermost entry down to this one, and
      the callables of the nested entries as its properties. */
  datatype Path = Path(templates: seq<string>, children: map<string, Path>)

  function BuildPath(c: PathConfig, parents: seq<string>): (p: Path)
    ensures p.templates == parents + [c.template]
    ensures p.children.Keys == (if c.Nested? then c.children.Keys else {})
    decreases c
  {
    match c
    case Leaf(t) => Path(parents + [t], map[])
    case Nested(t, children) =>
      Path(parents + [t], map k | k in children :: BuildPath(children[k], parents + [t]))
  }

  /** `buildPaths`: one callable per configuration key. */
  function BuildPaths(config: map<string, PathConfig>): (r: map<string, Path>)
    ensures r.Keys == config.Keys
    ensures forall k :: k in r ==> r[k].templates == [config[k].template]
  {
    map k | k in config :: BuildPath(config[k], [])
  }

  /** The expansions of a chain of templates joined by `/`: nothing as soon as one
      of them failed, and otherwise a path ending in `/` and the last expansion. */
  function Join(xs: seq<Option<string>>): (r: Option<string>)
    ensures r.Some? <==> forall i :: 0 <= i < |xs| ==> xs[i].Some?
    ensures |xs| >= 2 && r.Some? ==>
      var own := xs[|xs| - 1].value;
      |r.value| > |own| && r.value[|r.value| - |own| - 1..] == "/" + own
    decreases |xs|
  {
    if xs == [] then Some("")
    else if |xs| == 1 then xs[0]
    else
      var init := xs[..|xs| - 1];
      assert forall i :: 0 <= i < |init| ==> init[i] == xs[i];
      match (Join(init), xs[|xs| - 1])
      case (Some(a), Some(b)) =>
        assert (a + "/" + b)[|a|..] == "/" + b;
        Some(a + "/" + b)
      case _ => None
  }

  /** Each template of a chain expanded with the same parameters. */
  function Expansions(ts: seq<string>, params: map<string, string>): (r: seq<Option<string>>)
    ensures |r| == |ts| && forall i :: 0 <= i < |ts| ==> r[i] == Expand(ts[i], params)
  {
    seq(|ts|, i requires 0 <= i < |ts| => Expand(ts[i], params))
  }

  /** Calling a path: the expansions of its templates joined by `/`, each expanded
      with the same parameters. */
  function CallTemplates(ts: seq<string>, params: map<string, string>): Option<string>
  {
    Join(Expansions(ts, params))
  }

  /** Calling a built path yields a path exactly when every template from the
      outermost entry down to this one expands; a nested callable's path then ends
      with `/` and the expansion of its own template. */
  function Call(p: Path, params: map<string, string>): (r: Option<string>)
    ensures r.Some? <==> forall i :: 0 <= i < |p.templates| ==> Expand(p.templates[i], params).Some?
    ensures |p.templates| == 1 ==> r == Expand(p.templates[0], params)
    ensures |p.templates| >= 2 && r.Some? ==>
      var own := Expand(p.templates[|p.templates| - 1], params).value;
      |r.value| > |own| && r.value[|r.value| - |own| - 1..] == "/" + own
  {
    CallTemplates(p.templates, params)
  }

  /** An outermost callable expands its own template. */
  lemma CallOuter(config: map<string, PathConfig>, k: string, params: map<string, string>)
    requires k in config
    ensures Call(BuildPaths(config)[k], params) == Expand(config[k].template, params)
  {
  }

  /** A nested callable appends `/` and its own expansion to its parent's. */
  lemma CallNested(c: PathConfig, parents: seq<string>, k: string, params: map<string, string>)
    requires c.Nested? && k in c.children
    ensures var p := BuildPath(c, parents);
      && (Call(p.children[k], params).Some?
          <==> Call(p, params).Some? && Expand(c.children[k].template, params).Some?)
      && (Call(p.children[k], params).Some? ==>
            Call(p.children[k], params).value
              == Call(p, params).value + "/" + Expand(c.children[k].template, params).value)
  {
    var p := BuildPath(c, parents);
    var ts := p.children[k].templates;
    assert ts[..|ts| - 1] == p.templates;
    var xs := Expansions(ts, params);
    assert xs[..|xs| - 1] == Expansions(p.templates, params);
  }

  /** Every template of a configuration is well formed. */
  predicate WellFormedConfig(c: PathConfig)
    decreases c
  {
    && Parse(c.template).Some?
    && (c.Nested? ==> forall k :: k in c.children ==> WellFormedConfig(c.children[k]))
  }

  lemma CallTemplatesDefined(ts: seq<string>, params: map<string, string>)
    requires forall i :: 0 <= i < |ts| ==> Parse(ts[i]).Some?
    ensures CallTemplates(ts, params).Some?
  {
  }

  /** Every callable built from a well-formed configuration yields a path, with or
      without parameters, at any depth. */
  lemma {:induction false} CallAlwaysDefined(c: PathConfig, parents: seq<string>, params: map<string, string>)
    requires WellFormedConfig(c)
    requires forall i :: 0 <= i < |parents| ==> Parse(parents[i]).Some?
    ensures Call(BuildPath(c, parents), params).Some?
    ensures c.Nested? ==> forall k :: k in c.children ==>
      Call(BuildPath(c, parents).children[k], params).Some?
    decreases c
  {
    var ts := parents + [c.template];
    CallTemplatesDefined(ts, params);
    if c.Nested? {
      forall k | k in c.children
        ensures Call(BuildPath(c, parents).children[k], params).Some?
      {
        CallAlwaysDefined(c.children[k], ts, params);
      }
    }
  }

  predicate IsLiteralText(s: string)
  {
    forall j :: 0 <= j < |s| ==> IsLiteralChar(s[j])
  }

  /** The shape of the path builder's own example configuration, with `foo`, `bar`,
      `nested-string`, `nested-array` and the variable `param` generalised to any
      literal words and any variable name. */
  function ExampleConfig(foo: string, bar: string, ns: string, na: string, x: string): map<string, PathConfig>
  {
    map[
      "string" := Leaf(foo + "{/" + x + "}"),
      "array" := Nested(bar + "{/" + x + "}", map[
        "nestedString" := Leaf(ns),
        "nestedArray" := Nested(na, map[])])]
  }

  /** The outer callables of the example keep the configuration's keys and drop or
      fill in the segment. */
  lemma ExampleOuterExpansions(foo: string, bar: string, ns: string, na: string, x: string, v: string)
    requires IsLiteralText(foo) && IsLiteralText(bar) && IsVarName(x)
    ensures var paths := BuildPaths(ExampleConfig(foo, bar, ns, na, x));
      && paths.Keys == {"string", "array"}
      && paths["array"].children.Keys == {"nestedString", "nestedArray"}
      && Call(paths["string"], map[]) == Some(foo)
      && Call(paths["string"], map[x := v]) == Some(foo + "/" + v)
      && Call(paths["array"], map[]) == Some(bar)
      && Call(paths["array"], map[x := v]) == Some(bar + "/" + v)
  {
    var cfg := ExampleConfig(foo, bar, ns, na, x);
    ExpandSegmentAfter(foo, x, v);
    ExpandSegmentAfter(bar, x, v);
    CallOuter(cfg, "string", map[x := v]);
    CallOuter(cfg, "string", map[]);
    CallOuter(cfg, "array", map[x := v]);
    CallOuter(cfg, "array", map[]);
  }

  /** The nested callables of the example append `/` and their own text to the
      parent's expansion, with or without the parameter. */
  lemma ExampleNestedExpansions(foo: string, bar: string, ns: string, na: string, x: string, v: string)
    requires IsLiteralText(bar) && IsLiteralText(ns) && IsLiteralText(na) && IsVarName(x)
    ensures var arr := BuildPaths(ExampleConfig(foo, bar, ns, na, x))["array"];
      && "nestedString" in arr.children && "nestedArray" in arr.children
      && Call(arr.children["nestedString"], map[]) == Some(bar + "/" + ns)
      && Call(arr.children["nestedString"], map[x := v]) == Some(bar + "/" + v + "/" + ns)
      && Call(arr.children["nestedArray"], map[]) == Some(bar + "/" + na)
      && Call(arr.children["nestedArray"], map[x := v]) == Some(bar + "/" + v + "/" + na)
  {
    var c := ExampleConfig(foo, bar, ns, na, x)["array"];
    ExpandSegmentAfter(bar, x, v);
    ExpandLiteral(ns, map[x := v]);
    ExpandLiteral(ns, map[]);
    ExpandLiteral(na, map[x := v]);
    ExpandLiteral(na, map[]);
    ExampleNested(c, "nestedString", ns, map[x := v], bar + "/" + v);
    ExampleNested(c, "nestedString", ns, map[], bar);
    ExampleNested(c, "nestedArray", na, map[x := v], bar + "/" + v);
    ExampleNested(c, "nestedArray", na, map[], bar);
  }

  /** Literal text followed by one segment expression is the text of the template of
      its literals followed by that segment. */
  lemma SegmentAfterTemplate(lit: string, x: string)
    requires IsLiteralText(lit) && IsVarName(x)
    ensures var t := LiteralTemplate(lit) + [Segment(x)];
      WellFormed(t) && Unparse(t) == lit + "{/" + x + "}"
  {
    var seg := [Segment(x)];
    var t := LiteralTemplate(lit) + seg;
    forall i | 0 <= i < |t|
      ensures WellFormedPart(t[i])
    {
      if i < |lit| {
        assert t[i] == LiteralTemplate(lit)[i];
      }
    }
    assert Unparse(seg) == "{/" + x + "}" by {
      assert seg[1..] == [];
    }
    UnparseConcat(LiteralTemplate(lit), seg);
    assert lit + ("{/" + x + "}") == lit + "{/" + x + "}";
  }

  /** Literal text followed by `{/x}` reads as the template of its literals followed
      by that segment. */
  lemma ParseSegmentAfter(lit: string, x: string)
    requires IsLiteralText(lit) && IsVarName(x)
    ensures Parse(lit + "{/" + x + "}") == Some(LiteralTemplate(lit) + [Segment(x)])
  {
    SegmentAfterTemplate(lit, x);
    ParseUnparse(LiteralTemplate(lit) + [Segment(x)]);
  }

  /** A lone segment expression expands to `/` and the value of its variable, or to
      nothing when the variable is not given. */
  lemma ExpandSingleSegment(x: string, params: map<string, string>)
    ensures ExpandTemplate([Segment(x)], params) == (if x in params then "/" + params[x] else "")
  {
    assert [Segment(x)][1..] == [];
  }

  /** Literal text followed by `{/x}` expands to the text and the segment's expansion. */
  lemma ExpandSegmentWith(lit: string, x: string, params: map<string, string>)
    requires IsLiteralText(lit) && IsVarName(x)
    ensures Expand(lit + "{/" + x + "}", params) == Some(lit + (if x in params then "/" + params[x] else ""))
  {
    ParseSegmentAfter(lit, x);
    ExpandConcat(LiteralTemplate(lit), [Segment(x)], params);
    ExpandSingleSegment(x, params);
  }

  /** A segment expression after literal text is dropped when its variable is not
      given (section 3.2.6 of RFC 6570). */
  lemma ExpandSegmentDropped(lit: string, x: string)
    requires IsLiteralText(lit) && IsVarName(x)
    ensures Expand(lit + "{/" + x + "}", map[]) == Some(lit)
  {
    ExpandSegmentWith(lit, x, map[]);
    assert lit + "" == lit;
  }

  /** A segment expression after literal text becomes `/` and the value when its
      variable is given (section 3.2.6 of RFC 6570). */
  lemma ExpandSegmentFilled(lit: string, x: string, v: string)
    requires IsLiteralText(lit) && IsVarName(x)
    ensures Expand(lit + "{/" + x + "}", map[x := v]) == Some(lit + "/" + v)
  {
    var params := map[x := v];
    ExpandSegmentWith(lit, x, params);
    assert x in params && params[x] == v;
    assert lit + ("/" + v) == lit + "/" + v;
  }

  /** A segment expression after literal text: dropped without its variable, `/` and
      the value with it. */
  lemma ExpandSegmentAfter(lit: string, x: string, v: string)
    requires IsLiteralText(lit) && IsVarName(x)
    ensures Expand(lit + "{/" + x + "}", map[]) == Some(lit)
    ensures Expand(lit + "{/" + x + "}", map[x := v]) == Some(lit + "/" + v)
  {
    ExpandSegmentDropped(lit, x);
    ExpandSegmentFilled(lit, x, v);
  }

  lemma ExampleNested(c: PathConfig, key: string, lit: string, params: map<string, string>, e: string)
    requires c.Nested? && key in c.children && c.children[key].template == lit
    requires Expand(lit, params) == Some(lit)
    requires Expand(c.template, params) == Some(e)
    ensures Call(BuildPath(c, []).children[key], params) == Some(e + "/" + lit)
  {
    CallNested(c, [], key, params);
    assert BuildPath(c, []).templates == [c.template];
  }
}

=== FILE: time_slices.dfy ===
/** The time-slice partitioner of the timeline grid: the display range is cut at the
    boundaries of a calendar unit, and every slice becomes one grid cell whose left
    offset and width are counted in days. */
module TimeSlices {
  import opened CalendarUnits

  /** First and last day of a slice, both inclusive. */
  datatype Slice = Slice(start: int, end: int)

  /** A grid cell before the day counts are mapped to screen lengths. */
  datatype Cell = Cell(left: int, width: int)

  function Max(a: int, b: int): int { if a < b then b else a }

  function Min(a: int, b: int): int { if a < b then a else b }

  /** `r` cuts `[lo, hi]` into non-empty, consecutive slices without gap or overlap. */
  predicate Tiles(r: seq<Slice>, lo: int, hi: int)
  {
    && |r| > 0
    && r[0].start == lo
    && r[|r| - 1].end == hi
    && (forall i :: 0 <= i < |r| ==> r[i].start <= r[i].end)
    && (forall i :: 0 < i < |r| ==> r[i].start == r[i - 1].end + 1)
  }

  /** Every slice lies inside one block of `u`, and its ends fall on block boundaries
      unless they are clipped to the display range `[sv, ev]`. */
  predicate Aligned(u: Unit, r: seq<Slice>, sv: int, ev: int)
  {
    forall i :: 0 <= i < |r| ==>
      && u.startOf(r[i].start) == u.startOf(r[i].end)
      && (r[i].start == sv || IsBlockStart(u, r[i].start))
      && (r[i].end == ev || IsBlockEnd(u, r[i].end))
  }

  /** The cursor positions the loop can be in: the first block, or past `sv`. */
  predicate Phase(u: Unit, cursor: int, sv: int)
  {
    cursor == u.startOf(sv) || sv < cursor
  }

  /** The slices the loop emits from the block starting at `cursor` on.  The loop runs
      while the cursor (midnight of its day) is before the last instant of the block
      holding `ev`, that is while `cursor <= endOf(ev)` on whole days. */
  function SlicesFrom(u: Unit, cursor: int, sv: int, ev: int): (r: seq<Slice>)
    requires Valid(u) && IsBlockStart(u, cursor)
    ensures sv <= ev && Phase(u, cursor, sv) && cursor <= ev ==>
      Tiles(r, Max(cursor, sv), ev) && Aligned(u, r, sv, ev)
    ensures sv <= ev && ev < cursor ==> r == []
    decreases u.endOf(ev) - cursor
  {
    assert BlockAt(u, cursor) && BlockAt(u, ev) && BlockAt(u, sv);
    if cursor <= u.endOf(ev) then
      var s := Slice(Max(cursor, sv), Min(u.endOf(cursor), ev));
      var rest := SlicesFrom(u, u.next(cursor), sv, ev);
      assert SameBlock(u, cursor, s.start) && SameBlock(u, cursor, s.end);
      assert SameBlock(u, sv, cursor) && SameBlock(u, ev, cursor);
      assert SameBlock(u, cursor, u.endOf(cursor));
      [s] + rest
    else
      []
  }

  /** The slices `renderTimeSlices` emits for the display range `[sv, ev]`. */
  function Slices(u: Unit, sv: int, ev: int): (r: seq<Slice>)
    requires Valid(u)
    ensures sv <= ev ==> Tiles(r, sv, ev) && Aligned(u, r, sv, ev)
  {
    assert BlockAt(u, sv) && SameBlock(u, sv, u.startOf(sv));
    SlicesFrom(u, u.startOf(sv), sv, ev)
  }

  /** Slices of a tiling are strictly increasing and disjoint. */
  lemma {:induction false} TilesOrdered(r: seq<Slice>, lo: int, hi: int, i: int, j: int)
    requires Tiles(r, lo, hi)
    requires 0 <= i < j < |r|
    ensures r[i].end < r[j].start
    decreases j - i
  {
    if j > i + 1 {
      TilesOrdered(r, lo, hi, i, j - 1);
    }
  }

  /** Every slice of a tiling of `[lo, hi]` lies inside `[lo, hi]`. */
  lemma TilesWithin(r: seq<Slice>, lo: int, hi: int, i: int)
    requires Tiles(r, lo, hi)
    requires 0 <= i < |r|
    ensures lo <= r[i].start <= r[i].end <= hi
  {
    if i > 0 {
      TilesOrdered(r, lo, hi, 0, i);
    }
    if i < |r| - 1 {
      TilesOrdered(r, lo, hi, i, |r| - 1);
    }
  }

  /** The slice holding day `d` of a tiling, found from the front. */
  lemma {:induction false} TilesCover(r: seq<Slice>, lo: int, hi: int, d: int) returns (k: int)
    requires Tiles(r, lo, hi)
    requires lo <= d <= hi
    ensures 0 <= k < |r| && r[k].start <= d <= r[k].end
    ensures forall j :: 0 <= j < |r| && r[j].start <= d <= r[j].end ==> j == k
  {
    k := 0;
    while r[k].end < d
      invariant 0 <= k < |r|
      invariant r[k].start <= d
      decreases |r| - k
    {
      k := k + 1;
    }
    forall j | 0 <= j < |r| && r[j].start <= d <= r[j].end
      ensures j == k
    {
      if j < k {
        TilesOrdered(r, lo, hi, j, k);
      } else if k < j {
        TilesOrdered(r, lo, hi, k, j);
      }
    }
  }

  /** One slice per block: later slices sit in later blocks, so no two slices share
      a block. */
  lemma OneSlicePerBlock(u: Unit, sv: int, ev: int, i: int, j: int)
    requires Valid(u)
    requires sv <= ev
    requires 0 <= i < j < |Slices(u, sv, ev)|
    ensures var r := Slices(u, sv, ev);
      u.startOf(r[i].start) < u.startOf(r[j].start)
  {
    var r := Slices(u, sv, ev);
    TilesOrdered(r, sv, ev, i, j);
    TilesOrdered(r, sv, ev, 0, j);
    TilesWithin(r, sv, ev, 0);
    assert IsBlockStart(u, r[j].start);
    assert BlockAt(u, r[i].end);
  }

  /** Every block meeting `[sv, ev]` has a slice: the one holding any of its days in
      the range. */
  lemma BlockHasSlice(u: Unit, sv: int, ev: int, d: int)
    requires Valid(u)
    requires sv <= d <= ev
    ensures var r := Slices(u, sv, ev);
      exists k :: 0 <= k < |r| && u.startOf(r[k].start) == u.startOf(d)
  {
    var r := Slices(u, sv, ev);
    var k := TilesCover(r, sv, ev, d);
    assert BlockAt(u, r[k].start) && BlockAt(u, r[k].end);
    assert SameBlock(u, r[k].end, d);
  }

  /** With the day unit every day of the range is a slice of its own. */
  lemma {:induction false} DaySlices(sv: int, ev: int)
    requires sv <= ev
    ensures (DayIsValid(); var r := Slices(Day(), sv, ev);
      && |r| == ev - sv + 1
      && forall i :: 0 <= i < |r| ==> r[i] == Slice(sv + i, sv + i))
  {
    DayIsValid();
    var r := Slices(Day(), sv, ev);
    assert forall i :: 0 <= i < |r| ==> r[i].start == r[i].end;
    DayStarts(r, sv, ev, |r| - 1);
    forall i | 0 <= i < |r|
      ensures r[i] == Slice(sv + i, sv + i)
    {
      DayStarts(r, sv, ev, i);
    }
  }

  lemma {:induction false} DayStarts(r: seq<Slice>, sv: int, ev: int, i: int)
    requires Tiles(r, sv, ev)
    requires forall k :: 0 <= k < |r| ==> r[k].start == r[k].end
    requires 0 <= i < |r|
    ensures r[i].start == sv + i
  {
    if i > 0 {
      DayStarts(r, sv, ev, i - 1);
    }
  }

  /** With the week unit there is one slice per week from the week of `sv` to the week
      of `ev`. */
  lemma WeekSliceCount(weekStart: int, sv: int, ev: int)
    requires sv <= ev
    ensures (WeekIsValid(weekStart); var u := Week(weekStart);
      |Slices(u, sv, ev)| == (u.startOf(ev) - u.startOf(sv)) / 7 + 1)
  {
    WeekIsValid(weekStart);
    var u := Week(weekStart);
    var r := Slices(u, sv, ev);
    WeekBlocks(weekStart, r, sv, ev, |r| - 1);
    var n := |r| - 1;
    assert u.startOf(ev) - u.startOf(sv) == 7 * n;
  }

  lemma {:induction false} WeekBlocks(weekStart: int, r: seq<Slice>, sv: int, ev: int, i: int)
    requires Tiles(r, sv, ev) && Aligned(Week(weekStart), r, sv, ev)
    requires 0 <= i < |r|
    ensures Week(weekStart).startOf(r[i].start) == Week(weekStart).startOf(sv) + 7 * i
  {
    var u := Week(weekStart);
    if i > 0 {
      WeekBlocks(weekStart, r, sv, ev, i - 1);
      var p := r[i - 1];
      WeekBlock(weekStart, p.end);
      WeekBlock(weekStart, p.start);
      if p.end == ev {
        TilesOrdered(r, sv, ev, i - 1, |r| - 1);
        TilesWithin(r, sv, ev, |r| - 1);
        assert false;
      }
      assert r[i].start == u.startOf(p.start) + 7;
      WeekBlock(weekStart, r[i].start);
    }
  }

  /** The cell of one slice: its offset from `sv` and its length in days, so that it
      covers exactly the slice's days; a non-empty slice gives a cell at least one day
      wide. */
  function CellOf(s: Slice, sv: int): (c: Cell)
    ensures sv + c.left == s.start && sv + c.left + c.width - 1 == s.end
    ensures s.start <= s.end ==> c.width >= 1
  {
    Cell(s.start - sv, s.end - s.start + 1)
  }

  function Cells(r: seq<Slice>, sv: int): (cs: seq<Cell>)
    ensures |cs| == |r|
  {
    seq(|r|, i requires 0 <= i < |r| => CellOf(r[i], sv))
  }

  function TotalWidth(cs: seq<Cell>): int
  {
    if cs == [] then 0 else TotalWidth(cs[..|cs| - 1]) + cs[|cs| - 1].width
  }

  /** The cells of a tiling of `[sv, ev]` start at offset 0, abut one another, are at
      least one day wide, and their widths add up to the days of the range. */
  lemma CellsAbut(r: seq<Slice>, sv: int, ev: int)
    requires Tiles(r, sv, ev)
    ensures var cs := Cells(r, sv);
      && cs[0].left == 0
      && (forall i :: 0 <= i < |cs| ==> cs[i].width >= 1)
      && (forall i :: 0 < i < |cs| ==> cs[i].left == cs[i - 1].left + cs[i - 1].width)
      && TotalWidth(cs) == ev - sv + 1
  {
    WidthsAdd(r, sv, |r|);
    assert Cells(r, sv)[..|r|] == Cells(r, sv);
  }

  lemma {:induction false} WidthsAdd(r: seq<Slice>, sv: int, n: int)
    requires |r| > 0 && r[0].start == sv
    requires forall i :: 0 < i < |r| ==> r[i].start == r[i - 1].end + 1
    requires 0 < n <= |r|
    ensures TotalWidth(Cells(r, sv)[..n]) == r[n - 1].end - sv + 1
  {
    var cs := Cells(r, sv);
    assert cs[..n][..n - 1] == cs[..n - 1];
    if n > 1 {
      WidthsAdd(r, sv, n - 1);
    } else {
      assert cs[..0] == [];
    }
  }

  /** `renderTimeSlices`: the slice loop followed by the cell loop. */
  method RenderTimeSlices(u: Unit, sv: int, ev: int) returns (cells: seq<Cell>)
    requires Valid(u)
    ensures cells == Cells(Slices(u, sv, ev), sv)
    ensures sv <= ev ==> cells != [] && cells[0].left == 0 && TotalWidth(cells) == ev - sv + 1
  {
    var slices: seq<Slice> := [];
    assert BlockAt(u, sv) && SameBlock(u, sv, u.startOf(sv));
    var time := u.startOf(sv);
    var end := u.endOf(ev);
    while time <= end
      invariant IsBlockStart(u, time)
      invariant slices + SlicesFrom(u, time, sv, ev) == Slices(u, sv, ev)
      decreases end - time
    {
      assert BlockAt(u, time);
      var sliceStart := Max(time, sv);
      var sliceEnd := Min(u.endOf(time), ev);
      ghost var rest := SlicesFrom(u, u.next(time), sv, ev);
      assert SlicesFrom(u, time, sv, ev) == [Slice(sliceStart, sliceEnd)] + rest;
      time := u.next(time);
      slices := slices + [Slice(sliceStart, sliceEnd)];
    }
    assert SlicesFrom(u, time, sv, ev) == [];
    assert slices + [] == slices;
    cells := [];
    var k := 0;
    while k < |slices|
      invariant 0 <= k <= |slices|
      invariant cells == Cells(slices[..k], sv)
    {
      cells := cells + [Cell(slices[k].start - sv, slices[k].end - slices[k].start + 1)];
      k := k + 1;
    }
    assert slices[..k] == slices;
    if sv <= ev {
      CellsAbut(slices, sv, ev);
    }
  }

  /** A range given backwards is not rejected: the day unit yields no slice at all ... */
  lemma DayReversedRange(sv: int, ev: int)
    requires ev < sv
    ensures (DayIsValid(); Slices(Day(), sv, ev) == [])
  {
    DayIsValid();
  }

  /** ... while a coarser unit yields a slice that ends before it starts when both
      days fall in one week. */
  lemma WeekReversedRange(w: int, sv: int, ev: int)
    requires ev < sv
    requires Week(w).startOf(sv) == Week(w).startOf(ev)
    ensures (WeekIsValid(w); Slices(Week(w), sv, ev) == [Slice(sv, ev)])
  {
    WeekIsValid(w);
    var u := Week(w);
    var c := u.startOf(sv);
    assert u.endOf(c) == c + 6 && u.endOf(ev) == c + 6 && u.next(c) == c + 7;
    assert ev - c == (ev - w) % 7;
    assert SlicesFrom(u, c + 7, sv, ev) == [];
  }

  /** Cells at least one day wide are no more numerous than the days they span. */
  lemma {:induction false} WidthBound(cs: seq<Cell>)
    requires forall i :: 0 <= i < |cs| ==> cs[i].width >= 1
    ensures TotalWidth(cs) >= |cs|
  {
    if cs != [] {
      WidthBound(cs[..|cs| - 1]);
    }
  }
}

=== FILE: timeline_grid.dfy ===
/** The timeline grid component: on every refresh it picks the calendar unit for the
    zoom level, empties the grid and paints one cell per time slice. */
module TimelineGrid {
  import opened Wrappers
  import opened CalendarUnits
  import opened TimeSlices

  datatype ZoomLevel = Days | Weeks | Months | Quarters | Years

  datatype UnitKind = DayUnit | WeekUnit | MonthUnit

  /** The view parameters of one refresh: zoom level and displayed days. */
  datatype ViewParams = ViewParams(zoomLevel: ZoomLevel, displayStart: int, displayEnd: int)

  /** The date library's week and month units; weeks begin on the locale's first
      weekday, months are supplied as they come. */
  datatype Calendar = Calendar(weekStart: int, month: Unit)

  /** The grid component: the zoom level it believes it has painted (undefined until
      assigned), and the cells currently in the grid container. */
  datatype Grid = Grid(activeZoomLevel: Option<ZoomLevel>, cells: seq<Cell>)

  const InitialGrid := Grid(None, [])

  /** The `switch` of `renderLabels`: days and weeks are drawn per day, months per
      week, quarters and years per month. */
  function UnitFor(z: ZoomLevel): (k: UnitKind)
    ensures k == DayUnit <==> z == Days || z == Weeks
    ensures k == WeekUnit <==> z == Months
    ensures k == MonthUnit <==> z == Quarters || z == Years
  {
    match z
    case Days => DayUnit
    case Weeks => DayUnit
    case Months => WeekUnit
    case Quarters => MonthUnit
    case Years => MonthUnit
  }

  /** The unit of a kind: every day is its own block under the day unit, a week block
      runs from its first day to six days later, and months come from the calendar. */
  function UnitOf(k: UnitKind, cal: Calendar): (u: Unit)
    ensures k == DayUnit ==> forall d :: u.startOf(d) == d && u.endOf(d) == d
    ensures k == WeekUnit ==> forall d :: u.endOf(d) == u.startOf(d) + 6 && u.startOf(d) <= d <= u.endOf(d)
    ensures k == MonthUnit ==> u == cal.month
  {
    match k
    case DayUnit => Day()
    case WeekUnit => Week(cal.weekStart)
    case MonthUnit => cal.month
  }

  lemma UnitOfIsValid(k: UnitKind, cal: Calendar)
    requires Valid(cal.month)
    ensures Valid(UnitOf(k, cal))
  {
    DayIsValid();
    WeekIsValid(cal.weekStart);
  }

  /** The cells painted for `vp`: for a forward range at least one, and no more than
      there are displayed days. */
  function Paint(vp: ViewParams, cal: Calendar): (cs: seq<Cell>)
    requires Valid(cal.month)
    ensures vp.displayStart <= vp.displayEnd ==> 1 <= |cs| <= vp.displayEnd - vp.displayStart + 1
  {
    var u := UnitOf(UnitFor(vp.zoomLevel), cal);
    UnitOfIsValid(UnitFor(vp.zoomLevel), cal);
    var cs := Cells(Slices(u, vp.displayStart, vp.displayEnd), vp.displayStart);
    assert vp.displayStart <= vp.displayEnd ==> 1 <= |cs| <= vp.displayEnd - vp.displayStart + 1 by {
      if vp.displayStart <= vp.displayEnd {
        CellsAbut(Slices(u, vp.displayStart, vp.displayEnd), vp.displayStart, vp.displayEnd);
        WidthBound(cs);
      }
    }
    cs
  }

  /** Whatever the unit, the painted cells of a forward range start at the left edge,
      abut one another and together span every displayed day. */
  lemma PaintAbuts(vp: ViewParams, cal: Calendar)
    requires Valid(cal.month)
    ensures var cs := Paint(vp, cal);
      vp.displayStart <= vp.displayEnd ==>
        && cs != []
        && cs[0].left == 0
        && (forall i :: 0 < i < |cs| ==> cs[i].left == cs[i - 1].left + cs[i - 1].width)
        && (forall i :: 0 <= i < |cs| ==> cs[i].width >= 1)
        && TotalWidth(cs) == vp.displayEnd - vp.displayStart + 1
  {
    if vp.displayStart <= vp.displayEnd {
      var u := UnitOf(UnitFor(vp.zoomLevel), cal);
      UnitOfIsValid(UnitFor(vp.zoomLevel), cal);
      CellsAbut(Slices(u, vp.displayStart, vp.displayEnd), vp.displayStart, vp.displayEnd);
    }
  }

  /** `renderLabels` as written: the early return fires only if the active zoom level
      equals the requested one, and every `case` returns before the active level is
      assigned, so the field keeps its value. */
  function RenderLabels(g: Grid, vp: ViewParams, cal: Calendar): (r: Grid)
    requires Valid(cal.month)
    ensures r.activeZoomLevel == g.activeZoomLevel
    ensures g.activeZoomLevel == Some(vp.zoomLevel) ==> r == g
    ensures g.activeZoomLevel != Some(vp.zoomLevel) && vp.displayStart <= vp.displayEnd ==>
      && r.cells != []
      && r.cells[0].left == 0
      && (forall i :: 0 < i < |r.cells| ==> r.cells[i].left == r.cells[i - 1].left + r.cells[i - 1].width)
      && (forall i :: 0 <= i < |r.cells| ==> r.cells[i].width >= 1)
      && TotalWidth(r.cells) == vp.displayEnd - vp.displayStart + 1
  {
    if g.activeZoomLevel == Some(vp.zoomLevel) then
      g
    else
      PaintAbuts(vp, cal);
      Grid(g.activeZoomLevel, Paint(vp, cal))
  }

  /** The grid after a series of refreshes: no refresh records a zoom level. */
  function Refreshes(g: Grid, vps: seq<ViewParams>, cal: Calendar): (r: Grid)
    requires Valid(cal.month)
    ensures r.activeZoomLevel == g.activeZoomLevel
    ensures vps == [] ==> r == g
    decreases |vps|
  {
    if vps == [] then g else Refreshes(RenderLabels(g, vps[0], cal), vps[1..], cal)
  }

  /** The early return never fires: from the freshly created component, every refresh
      empties the grid and repaints it for the latest view parameters. */
  lemma {:induction false} AlwaysRepaints(vps: seq<ViewParams>, cal: Calendar)
    requires Valid(cal.month)
    requires vps != []
    ensures Refreshes(InitialGrid, vps, cal).activeZoomLevel == None
    ensures Refreshes(InitialGrid, vps, cal).cells == Paint(vps[|vps| - 1], cal)
  {
    RepaintsFrom(InitialGrid, vps, cal);
  }

  lemma {:induction false} RepaintsFrom(g: Grid, vps: seq<ViewParams>, cal: Calendar)
    requires Valid(cal.month)
    requires g.activeZoomLevel == None
    ensures Refreshes(g, vps, cal).activeZoomLevel == None
    ensures vps != [] ==> Refreshes(g, vps, cal).cells == Paint(vps[|vps| - 1], cal)
    decreases |vps|
  {
    if vps != [] {
      RepaintsFrom(RenderLabels(g, vps[0], cal), vps[1..], cal);
      if |vps| > 1 {
        assert vps[1..][|vps[1..]| - 1] == vps[|vps| - 1];
      }
    }
  }

  /** Under the day-based zoom levels every displayed day gets a one-day cell. */
  lemma DayZoomCells(g: Grid, vp: ViewParams, cal: Calendar)
    requires Valid(cal.month)
    requires vp.zoomLevel == Days || vp.zoomLevel == Weeks
    requires g.activeZoomLevel != Some(vp.zoomLevel)
    requires vp.displayStart <= vp.displayEnd
    ensures var cs := RenderLabels(g, vp, cal).cells;
      && |cs| == vp.displayEnd - vp.displayStart + 1
      && forall i :: 0 <= i < |cs| ==> cs[i] == Cell(i, 1)
  {
    DaySlices(vp.displayStart, vp.displayEnd);
  }
}

=== FILE: wrappers.dfy ===
/** The nullable values of the modelled code (`null`/`undefined` in TypeScript, `nil` in Ruby). */
module Wrappers {

  datatype Option<+T> = None | Some(value: T) {

    /** The wrapped value, or `default` when there is none */
    function GetOr(default: T): T
    {
      match this
      case Some(v) => v
      case None => default
    }
  }
}
